=== FILE: README.md ===
# Football academy admin: a verified model of its data logic

The academy's admin panel keeps a player list, skill evaluations, attendance
records and subscriptions. It derives these views from them:

- the overall rating of an evaluation;
- per-player attendance percentages and average ratings;
- the dashboard's team histogram;
- the evaluation analysis charts;
- the filtered lists of the players, evaluations and subscriptions pages;
- the attendance sheet that is saved for a team and a date.

This project models that logic as pure Dafny functions over immutable data and proves what each view promises.

## Modules

| module | file | models |
|---|---|---|
| `Common` | common.dfy | Shared tools (see the list below) |
| `Records` | records.dfy | Players, attendance statuses and records, the "unknown" label |
| `Evaluations` | evaluations.dfy | The ten skills, `calculateOverall`, the sample evaluations |
| `DataIndex` | data_index.dfy | The lookups, filters and statistics of the data layer |
| `Analysis` | analysis.dfy | The evaluation analysis page: team filter, selection, radar/bar/trend data |
| `Subscriptions` | subscriptions.dfy | Payment status, plan length, new subscriptions, search |
| `Dashboard` | dashboard.dfy | `fetchStats`: totals, players per team, top team, recent players |
| `AttendanceRoster` | attendance_page.dfy | Loading a team's roster, editing marks, the save payload |
| `EvaluationList` | evaluations_page.dfy | Joining evaluations with players, name search and team filter |
| `PlayerSearch` | players_page.dfy | The players page search box |

`Common` holds the shared tools:

- `Option`;
- `Math.round` of a quotient, as `RoundDiv`;
- `Array.filter` and `Array.find`;
- `Array.from(new Set(..))`;
- JavaScript object writes where the last write wins;
- ASCII case-insensitive substring search.

Some modelling conventions:

- **Number representation.** One-decimal numbers such as the overall rating 7.3 are held as integer tenths (73).
- **Rounding.** `Math.round(x)` on a non-negative rational `n/d` is `(2n + d) / (2d)`, that is, halves round up.
- **Dates.** Evaluation dates are `yyyymmdd` integers, so date order is integer order.
- **Object keys.** A JavaScript object used as a keyed table is modelled in one of two shapes that both keep its insertion order: the dashboard's team counts as a sequence of (team, count) entries with distinct names, and the attendance marks as a map together with its insertion-ordered key list.

## Model

| member | source | states |
|---|---|---|
| Evaluations.MeanTenths | app/data/evaluations.ts:35-36 | The result is the mean of the scores rounded half-up to one decimal: 2·n·r ≤ 20·sum + n < 2·n·(r+1) |
| Evaluations.CalculateOverall | app/data/evaluations.ts:22-37 | The overall is the sum of the ten scores read as tenths, i.e. their mean to one decimal, exact because there are ten of them |
| Evaluations.OverallOrderIndependent | app/data/evaluations.ts:23-36 | Adding the skills up in any order (any permutation of the ten scores) gives the same overall |
| Evaluations.OverallInRange | app/data/evaluations.ts:22-37 | With every score in [1, 10], the overall lies in [1.0, 10.0] |
| Evaluations.FillOverall | app/data/evaluations.ts:238-240 | Filling in the overalls keeps every evaluation in place and sets each one's overall to its computed rating |
| Evaluations.SampleE1Overall | app/data/evaluations.ts:41-56 | Sample evaluation e1 gets overall 7.3 |
| DataIndex.GetPlayerById | app/data/index.ts:15-20 | Found exactly when some player has the id, and then it is the first such player; none otherwise |
| DataIndex.GetPlayerEvaluations | app/data/index.ts:25-30 | Exactly the player's evaluations, each as often as in the input, in input order |
| DataIndex.GetPlayerAttendance | app/data/index.ts:35-40 | Exactly the player's attendance records, each as often as in the input, in input order |
| DataIndex.FilterPlayersByTeam | app/data/index.ts:45-50 | Exactly the team's players, each as often as in the input, in input order |
| DataIndex.FilterPlayersByTeamIdempotent | app/data/index.ts:45-50 | Filtering by the same team twice equals filtering once |
| DataIndex.CalculateAttendanceStats | app/data/index.ts:55-80 | All zero when the player has no records; otherwise each status's share of the player's records, rounded to the nearest whole percent, each within [0, 100] |
| DataIndex.StatusCountsPartition | app/data/index.ts:65-73 | The present, absent and late counts add up to the number of records |
| DataIndex.AttendancePercentagesNearHundred | app/data/index.ts:65-79 | For a player with records, the three percentages add up to 99, 100 or 101 |
| DataIndex.AttendanceSharesNeedNotSumToHundred | app/data/index.ts:75-79 | A concrete player with three records of different statuses gets 33 + 33 + 33 = 99 |
| DataIndex.AverageSkillInRange | app/data/index.ts:107-135 | With scores in [1, 10], a skill's rounded average over a non-empty list lies in [1.0, 10.0] |
| DataIndex.Totals | app/data/index.ts:107-119 | Each skill total and the overall total are the sums over all the evaluations, a missing overall adding 0 |
| DataIndex.PlayerAveragesInRange | app/data/index.ts:121-135 | If all of a player's evaluations have scores in [1, 10], every rounded skill average lies in [1.0, 10.0] |
| DataIndex.CalculatePlayerAverageRatings | app/data/index.ts:85-136 | No result exactly when the player has no evaluations. Otherwise each skill average and the overall average (a missing overall counting 0) is the total over the player's evaluations divided by their number, rounded half-up to one decimal |
| Analysis.VisiblePlayers | app/dashboard/evaluations/analysis/page.tsx:78-82 | Every player when the filter is empty or ALL_TEAMS; otherwise exactly that team's players, in order |
| Analysis.TeamChoices | app/dashboard/evaluations/analysis/page.tsx:117 | Each non-empty team of the listed players exactly once |
| Common.TeamOptionsKeepOrder | app/dashboard/evaluations/analysis/page.tsx:117 | The team choices are a subsequence of the team list, in the order of their first appearance: each choice occurs in the list before any later choice does, as a `Set` keeps insertion order |
| Analysis.SortByDate | app/dashboard/evaluations/analysis/page.tsx:106 | The result is ascending by date, a permutation of the input, and evaluations of the same date keep their relative order (a stable sort) |
| Analysis.PlayerEvaluationsSorted | app/dashboard/evaluations/analysis/page.tsx:103-106 | Exactly the player's evaluations, ascending by date, same-date ones in input order |
| Analysis.EvaluationsBySelection | app/dashboard/evaluations/analysis/page.tsx:100-109 | Keyed by exactly the selected ids, each holding that player's date-ordered evaluations |
| Analysis.TogglePlayerSelection | app/dashboard/evaluations/analysis/page.tsx:255-263 | A selected id is removed and nothing else changes. An unselected one is appended. A selection without duplicates stays without duplicates |
| Analysis.ToggleTwiceRestores | app/dashboard/evaluations/analysis/page.tsx:255-263 | Selecting and then deselecting an id restores the selection |
| Analysis.ToggleTwiceMovesToEnd | app/dashboard/evaluations/analysis/page.tsx:255-263 | Deselecting and reselecting an id moves it to the end |
| Analysis.ChartOverall | app/dashboard/evaluations/analysis/page.tsx:178-189 | The chart's overall is the score sum divided by ten, rounded half-up to a whole number |
| Analysis.OverallRulesDisagree | app/dashboard/evaluations/analysis/page.tsx:178-189 | The chart overall is the data overall rounded to a whole number. The two agree exactly when the score sum is a multiple of ten, and otherwise differ by at most half a point (exactly half when the sum ends in 5, as 7.5 charts as 8) |
| Analysis.SampleE1Disagreement | app/dashboard/evaluations/analysis/page.tsx:178-189 | Sample e1 is charted as 7 while its overall is 7.3 |
| Analysis.RadarEntry | app/dashboard/evaluations/analysis/page.tsx:147-154 | A selected id contributes to a radar row exactly when it has evaluations and is a listed player; it then contributes that player's name and the latest score for the skill |
| Analysis.RadarValues | app/dashboard/evaluations/analysis/page.tsx:146-156 | A name appears in a radar row exactly when some charted selected player has it. Its value is the one written by the last such player in selection order |
| Analysis.RadarChartData | app/dashboard/evaluations/analysis/page.tsx:120-160 | Nothing for an empty selection; otherwise one row per skill, in the fixed skill order, carrying that skill's label and values |
| Analysis.BarChartData | app/dashboard/evaluations/analysis/page.tsx:163-206 | One row per selected id, in order. A charted id's row carries its name, its latest scores and the whole-number chart overall; any other id's row has the unknown name only |
| Analysis.TrendChartData | app/dashboard/evaluations/analysis/page.tsx:209-252 | Nothing unless the first selected id is non-empty and has a list. Otherwise one row per evaluation of that list, in order, with its date and chart overall |
| Analysis.TrendIsChronological | app/dashboard/evaluations/analysis/page.tsx:209-218 | On the page's own per-player lists, the trend has one row per evaluation of the first selected player, in ascending date order |
| Subscriptions.DeterminePaymentStatus | app/dashboard/subscriptions/page.tsx:181-189 | Paid exactly when the paid amount reaches the amount. Partial exactly when it is positive but short. Unpaid exactly when it is zero or negative and short |
| Subscriptions.PlanMonths | app/dashboard/subscriptions/page.tsx:163-178 | The quarterly, semi-annual and annual plans add exactly 3, 6 and 12 months; every other plan string adds 1 |
| Subscriptions.NewSubscription | app/dashboard/subscriptions/page.tsx:192-216 | The new subscription is active and copies the form. Its paid amount is 0 when none was given, and its payment status follows from the amount and the paid amount. Its player name is the first matching player's, or empty |
| Subscriptions.MissingPaymentIsUnpaid | app/dashboard/subscriptions/page.tsx:197-202 | Leaving the paid amount empty on a positive amount records the subscription as unpaid |
| Subscriptions.AddSubscription | app/dashboard/subscriptions/page.tsx:218 | The new subscription goes first; the others follow unchanged and in order |
| Subscriptions.FilterSubscriptions | app/dashboard/subscriptions/page.tsx:230-238 | Exactly the subscriptions whose player name or plan contains the query ignoring case, in order |
| Subscriptions.EmptySearchKeepsAll | app/dashboard/subscriptions/page.tsx:230-238 | An empty search lists every subscription |
| Subscriptions.SearchAfterAdd | app/dashboard/subscriptions/page.tsx:218-238 | Searching after an addition is the previous search result, with the new subscription in front when it matches |
| Dashboard.Bump | app/dashboard/page.tsx:70-72 | Counting a player's team adds one to that team's entry, or appends the team with count 1; the team names stay distinct |
| Dashboard.TeamHistogram | app/dashboard/page.tsx:68-78 | One entry per distinct non-empty team of the players, each holding that team's number of players |
| Dashboard.HistogramOrder | app/dashboard/page.tsx:68-78 | The histogram lists the teams in order of first appearance, the same order as the team options |
| Dashboard.HistogramTotal | app/dashboard/page.tsx:68-78 | The counts add up to the number of players with a team, which together with the teamless players is all players |
| Dashboard.TopTeam | app/dashboard/page.tsx:170-175 | "-" for an empty histogram; otherwise the team with the largest count, the first one on a tie |
| Dashboard.RecentPlayers | app/dashboard/page.tsx:81-87 | The first min(5, n) players, each reduced to id, name and team |
| Dashboard.FetchStats | app/dashboard/page.tsx:54-95 | The totals are the list sizes. Per-team counts plus teamless players give the total players. Teams are listed in first-appearance order, and at most five players are recent. The per-team counts are the team histogram and the recent players the first five, as `Dashboard.TeamHistogram` and `Dashboard.RecentPlayers` state |
| AttendanceRoster.DefaultMarksOf | app/dashboard/attendance/page.tsx:115-121 | One entry per distinct id, keyed in order of first appearance, each marking that player present with empty notes |
| AttendanceRoster.DefaultMarks | app/dashboard/attendance/page.tsx:112-121 | The roster's marks: each distinct player present with empty notes, in roster order |
| AttendanceRoster.TeamRoster | app/dashboard/attendance/page.tsx:107 | Exactly the chosen team's players, in list order |
| AttendanceRoster.FetchPlayers | app/dashboard/attendance/page.tsx:100-125 | No change without a team. Otherwise the roster becomes the team's players. The marks are reset to defaults only when that roster is non-empty |
| AttendanceRoster.StatusChange | app/dashboard/attendance/page.tsx:137-148 | Only the given player's status changes. The player's other fields and every other entry are kept, and a new player's entry goes last |
| AttendanceRoster.NotesChange | app/dashboard/attendance/page.tsx:151-159 | Only the given player's notes change. The player's other fields and every other entry are kept, and a new player's entry goes last |
| AttendanceRoster.StatusChangeIdempotent | app/dashboard/attendance/page.tsx:137-148 | Setting the same status twice equals setting it once |
| AttendanceRoster.EntriesCommute | app/dashboard/attendance/page.tsx:137-159 | Setting one player's status and another's (or the same player's) notes gives the same entries in either order |
| AttendanceRoster.StatusAndNotesCommute | app/dashboard/attendance/page.tsx:137-159 | A status change and a notes change give the same entries in either order. The key order, and so the order of the saved rows, is the same exactly when the two players are the same or at least one already has an entry |
| AttendanceRoster.SavedNotes | app/dashboard/attendance/page.tsx:178 | Notes are saved exactly when present and non-empty, and then unchanged |
| AttendanceRoster.SaveAttendance | app/dashboard/attendance/page.tsx:162-179 | Nothing is saved when the team or date is missing or there are no marks. Otherwise one row per mark, in key order, with the session date |
| AttendanceRoster.FreshRosterSaved | app/dashboard/attendance/page.tsx:100-179 | Saving right after loading a roster that shows the save button records each distinct roster player present, with no notes, in roster order |
| AttendanceRoster.SavedRowsBelongToTeam | app/dashboard/attendance/page.tsx:100-179 | When the save button is shown after a load, every saved row is for a player of the chosen team |
| EvaluationList.Enrich | app/dashboard/evaluations/page.tsx:64-78 | The row carries the first matching player's name, team and position, or "unknown" for all three. A missing overall is shown as 0 |
| EvaluationList.EnrichAll | app/dashboard/evaluations/page.tsx:64-78 | One enriched row per evaluation, in order |
| EvaluationList.StepsAreOneFilter | app/dashboard/evaluations/page.tsx:88-105 | The conditional name step followed by the conditional team step equals a single filter by both conditions |
| EvaluationList.FilterRows | app/dashboard/evaluations/page.tsx:88-105 | Exactly the rows that pass the name search and the team filter, in order |
| EvaluationList.NoFiltersListAll | app/dashboard/evaluations/page.tsx:88-105 | With no search and no team (or "all") every row is listed |
| EvaluationList.FilterRowsIdempotent | app/dashboard/evaluations/page.tsx:88-105 | Filtering the filtered list again changes nothing |
| EvaluationList.TeamChoices | app/dashboard/evaluations/page.tsx:109 | Each non-empty team among the rows exactly once |
| EvaluationList.OrphanEvaluationAddsUnknownTeam | app/dashboard/evaluations/page.tsx:64-78 | An evaluation of a player not in the list makes "unknown" one of the team choices |
| PlayerSearch.FilterPlayers | app/dashboard/players/page.tsx:33-38 | Exactly the players whose name or team contains the query ignoring case, or whose national id contains it as typed, in order |
| PlayerSearch.EmptySearchListsAll | app/dashboard/players/page.tsx:33-38 | An empty search lists every player |
| PlayerSearch.MatchesPrefix | app/dashboard/players/page.tsx:35-37 | A player who matches a query matches every prefix of it |
| PlayerSearch.TypingNarrows | app/dashboard/players/page.tsx:33-38 | Typing more characters never lists a player more often than before |
| PlayerSearch.SearchKeepsDistinct | app/dashboard/players/page.tsx:33-38 | A list without repeated players gives search results without repeats |

## Left out

- Rendering, routing, toasts, dialogs, loading flags and the artificial delays before data appears are left out; they are presentation. Derived state such as the selected players' evaluations is modelled as a function of the current state, without the one-render lag of `useEffect`.
- Floating point is left out. The `Math.round` quotients are computed exactly on integers and rationals, which agrees with the source except where binary rounding tips a value that is exactly half-way, and that can happen at any such half. Two examples: in DataIndex.CalculateAttendanceStats, 23 present out of 40 records gives `(23 / 40) * 100` = 57.49999999999999 in IEEE doubles, so the source shows 57% where the exact model gives 58 (46 of 80, 69 of 120 and 92 of 160 behave the same); and in the overall average of DataIndex.CalculatePlayerAverageRatings, two evaluations rated 7.6 and 8.7 give `(7.6 + 8.7) / 2 * 10` = 81.49999999999999 in IEEE doubles, so the source reports 8.1 where the exact model gives 82 tenths (8.2).
- Date parsing and formatting are left out. Evaluation dates are `yyyymmdd` integers, and the trend row keeps the date as that integer rather than the formatted string.
- Subscriptions.NewSubscription: the end date is represented by the plan's month count. The calendar arithmetic of `calculateEndDate` (adding months to a parsed date, end-of-month overflow) is left out.
- Subscriptions.NewSubscription: the id comes from the clock in the source and is a parameter here. Amounts are the integers `parseInt` yields for well-formed input. `NaN` amounts are not represented: the form only checks that the amount is non-empty and the paid amount is optional, so an amount typed as ".5" passes and `parseInt` turns it into `NaN`.
- The player picker's name lookup in the subscription form is the same first-match search as `DataIndex.GetPlayerById` and is not modelled separately. The subscription list starts empty in the source, so the sample data is not modelled.
- Lower-casing covers ASCII letters only, one character at a time. `toLowerCase` also lowers the cased letters of other scripts (accented Latin, Greek, Cyrillic) and lowers the Greek capital sigma differently at the end of a word; the model leaves every non-ASCII character unchanged. The Persian names the data uses have no case, so for them the two agree.
- PlayerSearch.MatchesPrefix / PlayerSearch.TypingNarrows: both rely on the per-character ASCII lowering. The source's context-sensitive lowering can break them: a name "ΟΣΑ" matches the query "ΟΣΑ" but not its prefix "ΟΣ", which lowers to "ος".
- Analysis.RadarValues: a player whose name is literally `skill` would overwrite the row's label in the source. Player values are kept apart from the label here. Chart colours are left out: the radar takes each player's colour from a three-entry palette indexed by selection position, which leaves the fourth and later players without a colour.
- JavaScript objects list integer-like keys in numeric order before other keys. The model uses plain insertion order, which agrees for the team names and player ids the data uses.
- The attendance record type file is not part of this model. `Records.AttendanceRecord` holds the player id, the session date and the status, of which the statistics read the id and the status. Evaluation notes are left out of the sample data.
- Authentication, the login page, settings, the database client, schema validation messages and the seed script are left out; they are outside this logic.

=== FILE: analysis.dfy ===
/**
 * The evaluation analysis page: a team filter over the players, each
 * selected player's evaluations in date order, and the radar, bar and trend
 * series drawn from them.
 *
 * The page's state is the team filter and the ordered list of selected
 * player ids; everything else is derived from it by the functions below.
 */
module Analysis {
  import opened Common
  import opened Records
  import opened Evaluations
  import opened DataIndex

  /** The filter value that shows every team. */
  const AllTeams: string := "ALL_TEAMS"

  /** Whether the team filter lets a player with this team through. */
  predicate TeamShown(teamFilter: string, team: string) {
    teamFilter == "" || teamFilter == AllTeams || team == teamFilter
  }

  /**
   * The players listed under the team filter: all of them when the filter is
   * empty or ALL_TEAMS, otherwise exactly that team's players, in order.
   */
  function VisiblePlayers(players: seq<Player>, teamFilter: string): (r: seq<Player>)
    ensures teamFilter == "" || teamFilter == AllTeams ==> r == players
    ensures forall p :: multiset(r)[p] == if TeamShown(teamFilter, p.team) then multiset(players)[p] else 0
    ensures IsSubsequence(r, players)
  {
    if teamFilter != "" && teamFilter != AllTeams then
      FilterPlayersByTeam(teamFilter, players)
    else
      SubsequenceOfSelf(players);
      players
  }

  /** The team choices offered: each non-empty team among the listed players, once. */
  function TeamChoices(visible: seq<Player>): (r: seq<string>)
    ensures NoDups(r)
    ensures forall t :: t in r <==> t != "" && exists i :: 0 <= i < |visible| && visible[i].team == t
  {
    var teams := TeamsOf(visible);
    assert forall t :: t in teams <==> exists i :: 0 <= i < |visible| && visible[i].team == t by {
      forall t ensures t in teams <==> exists i :: 0 <= i < |visible| && visible[i].team == t {
        if t in teams {
          var i :| 0 <= i < |teams| && teams[i] == t;
          assert visible[i].team == t;
        }
      }
    }
    TeamOptions(teams)
  }

  // ---------------------------------------------------------------------------
  // Evaluations in date order

  predicate SortedByDate(s: seq<Evaluation>) {
    forall i, j :: 0 <= i < j < |s| ==> s[i].date <= s[j].date
  }

  /** The evaluations carrying one date, in the order they appear. */
  function OnDate(s: seq<Evaluation>, d: int): seq<Evaluation> {
    Filter(s, (e: Evaluation) => e.date == d)
  }

  /** Places `x` before the first element dated no earlier than `x`. */
  function InsertByDate(x: Evaluation, s: seq<Evaluation>): (r: seq<Evaluation>)
    ensures |r| == |s| + 1
    ensures multiset(r) == multiset(s) + multiset{x}
  {
    if |s| == 0 || x.date <= s[0].date then
      [x] + s
    else
      assert s == [s[0]] + s[1..];
      [s[0]] + InsertByDate(x, s[1..])
  }

  /** Inserting an element no earlier than `lo` into a list no earlier than `lo` gives such a list. */
  lemma {:induction false} InsertLowerBound(x: Evaluation, s: seq<Evaluation>, lo: int)
    requires lo <= x.date
    requires forall i :: 0 <= i < |s| ==> lo <= s[i].date
    ensures forall i :: 0 <= i < |s| + 1 ==> lo <= InsertByDate(x, s)[i].date
    decreases |s|
  {
    if |s| > 0 && x.date > s[0].date {
      InsertLowerBound(x, s[1..], lo);
    }
  }

  /** A date-ordered list with an element in front dated no later than all of it is date-ordered. */
  lemma SortedCons(y: Evaluation, t: seq<Evaluation>)
    requires SortedByDate(t)
    requires forall i :: 0 <= i < |t| ==> y.date <= t[i].date
    ensures SortedByDate([y] + t)
  {
    var r := [y] + t;
    forall i, j | 0 <= i < j < |r| ensures r[i].date <= r[j].date {
      assert r[j] == t[j - 1];
      if i > 0 {
        assert r[i] == t[i - 1];
      }
    }
  }

  /** Inserting into a date-ordered list keeps it date-ordered. */
  lemma {:induction false} InsertKeepsSorted(x: Evaluation, s: seq<Evaluation>)
    requires SortedByDate(s)
    ensures SortedByDate(InsertByDate(x, s))
    decreases |s|
  {
    if |s| == 0 || x.date <= s[0].date {
      SortedCons(x, s);
    } else {
      assert SortedByDate(s[1..]) by {
        forall i, j | 0 <= i < j < |s| - 1 ensures s[1..][i].date <= s[1..][j].date {
          assert s[1..][i] == s[i + 1] && s[1..][j] == s[j + 1];
        }
      }
      InsertKeepsSorted(x, s[1..]);
      InsertLowerBound(x, s[1..], s[0].date);
      SortedCons(s[0], InsertByDate(x, s[1..]));
    }
  }

  /** Inserting `x` adds it to its own date's run, at the front, and to no other. */
  lemma {:induction false} InsertOnDate(x: Evaluation, s: seq<Evaluation>, d: int)
    ensures OnDate(InsertByDate(x, s), d) == if x.date == d then [x] + OnDate(s, d) else OnDate(s, d)
    decreases |s|
  {
    if |s| == 0 || x.date <= s[0].date {
      assert ([x] + s)[0] == x && ([x] + s)[1..] == s;
    } else {
      var rest := InsertByDate(x, s[1..]);
      InsertOnDate(x, s[1..], d);
      assert ([s[0]] + rest)[0] == s[0] && ([s[0]] + rest)[1..] == rest;
      assert s[0].date != x.date;
    }
  }

  /**
   * The stable ascending sort by date of `Array.prototype.sort` with the
   * comparator `date(a) - date(b)`: the result is ordered by date, is a
   * permutation of the input, and evaluations sharing a date keep their
   * input order.
   */
  function SortByDate(s: seq<Evaluation>): (r: seq<Evaluation>)
    ensures SortedByDate(r)
    ensures multiset(r) == multiset(s)
    ensures forall d :: OnDate(r, d) == OnDate(s, d)
  {
    if |s| == 0 then []
    else
      var rest := SortByDate(s[1..]);
      assert s == [s[0]] + s[1..];
      InsertOnDateAll(s[0], rest);
      InsertKeepsSorted(s[0], rest);
      InsertByDate(s[0], rest)
  }

  lemma InsertOnDateAll(x: Evaluation, s: seq<Evaluation>)
    ensures forall d :: OnDate(InsertByDate(x, s), d) == if x.date == d then [x] + OnDate(s, d) else OnDate(s, d)
  {
    forall d ensures OnDate(InsertByDate(x, s), d) == if x.date == d then [x] + OnDate(s, d) else OnDate(s, d) {
      InsertOnDate(x, s, d);
    }
  }

  /**
   * One selected player's list: exactly that player's evaluations, ascending
   * by date, evaluations of the same date in their input order.
   */
  function PlayerEvaluationsSorted(evaluations: seq<Evaluation>, playerId: string): (r: seq<Evaluation>)
    ensures SortedByDate(r)
    ensures forall e :: multiset(r)[e] == if e.playerId == playerId then multiset(evaluations)[e] else 0
    ensures forall d :: OnDate(r, d) == OnDate(GetPlayerEvaluations(playerId, evaluations), d)
  {
    SortByDate(GetPlayerEvaluations(playerId, evaluations))
  }

  /** The per-player lists, one for each selected id (none when nothing is selected). */
  function EvaluationsBySelection(selected: seq<string>, evaluations: seq<Evaluation>): (r: map<string, seq<Evaluation>>)
    ensures forall id :: id in r <==> id in selected
    ensures forall id :: id in r ==> r[id] == PlayerEvaluationsSorted(evaluations, id)
  {
    map id | id in selected :: PlayerEvaluationsSorted(evaluations, id)
  }

  // ---------------------------------------------------------------------------
  // Selection

  /**
   * handleTogglePlayerSelection: a selected id is removed, an unselected one
   * appended; no other id is touched and no duplicate ever appears.
   */
  function TogglePlayerSelection(selected: seq<string>, id: string): (r: seq<string>)
    ensures id in selected ==> id !in r
    ensures id in selected ==> forall x :: x != id ==> multiset(r)[x] == multiset(selected)[x]
    ensures id in selected ==> IsSubsequence(r, selected)
    ensures id !in selected ==> |r| == |selected| + 1 && r[..|selected|] == selected && r[|selected|] == id
    ensures NoDups(selected) ==> NoDups(r)
  {
    if id in selected then
      var r := Filter(selected, (x: string) => x != id);
      assert NoDups(selected) ==> NoDups(r) by {
        if NoDups(selected) {
          FilterNoDups(selected, (x: string) => x != id);
        }
      }
      assert id !in r by {
        FilterMembership(selected, (x: string) => x != id, id);
      }
      r
    else
      var r := selected + [id];
      assert NoDups(selected) ==> NoDups(r) by {
        if NoDups(selected) {
          forall i, j | 0 <= i < j < |r| ensures r[i] != r[j] {
            if j == |selected| {
              assert r[i] == selected[i];
            }
          }
        }
      }
      r
  }

  /** Toggling an unselected id twice gives back the original selection. */
  lemma ToggleTwiceRestores(selected: seq<string>, id: string)
    requires id !in selected
    ensures TogglePlayerSelection(TogglePlayerSelection(selected, id), id) == selected
  {
    var once := selected + [id];
    assert TogglePlayerSelection(selected, id) == once;
    FilterConcat(selected, [id], (x: string) => x != id);
    FilterAll(selected, (x: string) => x != id);
    assert Filter([id], (x: string) => x != id) == [];
  }

  /** Toggling a selected id twice moves it to the end of the selection. */
  lemma ToggleTwiceMovesToEnd(selected: seq<string>, id: string)
    requires id in selected
    ensures TogglePlayerSelection(TogglePlayerSelection(selected, id), id)
         == Filter(selected, (x: string) => x != id) + [id]
  {
    FilterMembership(selected, (x: string) => x != id, id);
  }

  // ---------------------------------------------------------------------------
  // Chart series

  function SkillLabel(k: Skill): string {
    match k
    case Passing => "پاس"
    case Shooting => "شوت"
    case Dribbling => "دریبل"
    case Technique => "تکنیک"
    case Tactical => "تاکتیک"
    case Physical => "فیزیک"
    case Speed => "سرعت"
    case Aerial => "بازی هوایی"
    case Defending => "دفاع"
    case Morale => "روحیه"
  }

  /** The last element of a player's date-ordered list. */
  function Latest(evs: seq<Evaluation>): Evaluation
    requires |evs| > 0
  {
    evs[|evs| - 1]
  }

  /** Whether a selected id can be charted: it has a non-empty list and is among the listed players. */
  predicate Charted(id: string, visible: seq<Player>, byPlayer: map<string, seq<Evaluation>>) {
    id in byPlayer && |byPlayer[id]| > 0 && GetPlayerById(id, visible).Some?
  }

  /**
   * The chart overall: `Math.round(sum / 10)` of the ten scores, a whole
   * number, unlike the one-decimal overall of the evaluation data.
   */
  function ChartOverall(s: Skills): (r: int)
    ensures 20 * r <= 2 * ScoreSum(s) + 10 < 20 * (r + 1)
  {
    ScoreSumFields(s);
    RoundDiv(s.passing + s.shooting + s.dribbling + s.technique + s.tactical
             + s.physical + s.speed + s.aerial + s.defending + s.morale, 10)
  }

  /**
   * The two overall rules disagree: the chart's whole-number overall is the
   * one-decimal overall rounded half-up to a whole number, so they coincide
   * exactly when the score sum is a multiple of ten and otherwise differ by
   * up to half a point.
   */
  lemma OverallRulesDisagree(s: Skills)
    ensures ChartOverall(s) == RoundDiv(CalculateOverall(s), 10)
    ensures -5 <= CalculateOverall(s) - 10 * ChartOverall(s) < 5
    ensures CalculateOverall(s) == 10 * ChartOverall(s) <==> ScoreSum(s) % 10 == 0
  {
    var c, o := ChartOverall(s), CalculateOverall(s);
    MulCancel(c, RoundDiv(o, 10), 20);
    MulCancel(RoundDiv(o, 10), c, 20);
  }

  /** Sample e1 (score sum 73) charts as 7 but rates 7.3. */
  lemma SampleE1Disagreement()
    ensures ChartOverall(SampleEvaluations[0].skills) == 7
    ensures CalculateOverall(SampleEvaluations[0].skills) == 73
  {
    ScoreSumFields(SampleEvaluations[0].skills);
  }

  datatype RadarRow = RadarRow(skill: string, values: map<string, int>)

  /** What a selected id writes into the radar row of skill k: its name and its latest score. */
  function RadarEntry(id: string, visible: seq<Player>, byPlayer: map<string, seq<Evaluation>>, k: Skill)
    : (r: Option<(string, int)>)
    ensures r.Some? <==> Charted(id, visible, byPlayer)
    ensures r.Some? ==> r.value == (GetPlayerById(id, visible).value.name, Score(Latest(byPlayer[id]).skills, k))
  {
    if id in byPlayer && |byPlayer[id]| > 0 then
      match GetPlayerById(id, visible)
      case Some(p) => Some((p.name, Score(Latest(byPlayer[id]).skills, k)))
      case None => None
    else None
  }

  /** Whether the selected id writes the key `name` into the radar row of skill k. */
  predicate WritesName(id: string, visible: seq<Player>, byPlayer: map<string, seq<Evaluation>>, k: Skill, name: string) {
    var e := RadarEntry(id, visible, byPlayer, k);
    e.Some? && e.value.0 == name
  }

  /**
   * The player values of one radar row, keyed by player name: a name is
   * present exactly when some selected, charted player has it (see
   * RadarEntry), and its value is the one written by the last such player in
   * selection order, so a later player of the same name overwrites an
   * earlier one.
   */
  function RadarValues(selected: seq<string>, visible: seq<Player>, byPlayer: map<string, seq<Evaluation>>, k: Skill)
    : (r: map<string, int>)
    ensures forall nm :: nm in r <==> exists j :: 0 <= j < |selected| && WritesName(selected[j], visible, byPlayer, k, nm)
    ensures forall nm :: nm in r ==>
      exists j :: 0 <= j < |selected| && RadarEntry(selected[j], visible, byPlayer, k) == Some((nm, r[nm]))
               && forall j' :: j < j' < |selected| ==> !WritesName(selected[j'], visible, byPlayer, k, nm)
  {
    var entry := (id: string) => RadarEntry(id, visible, byPlayer, k);
    var r := LastWinsOf(selected, entry);
    assert forall j :: 0 <= j < |selected| ==> entry(selected[j]) == RadarEntry(selected[j], visible, byPlayer, k);
    assert forall j, nm :: 0 <= j < |selected| ==>
      (WritesVia(entry, selected[j], nm) <==> WritesName(selected[j], visible, byPlayer, k, nm));
    r
  }

  /**
   * getRadarChartData: nothing for an empty selection, otherwise one row per
   * skill in the fixed skill order, each carrying the selected players'
   * latest scores for that skill.
   */
  function RadarChartData(selected: seq<string>, visible: seq<Player>, byPlayer: map<string, seq<Evaluation>>)
    : (r: seq<RadarRow>)
    ensures |selected| == 0 ==> r == []
    ensures |selected| > 0 ==> |r| == |SkillOrder|
    ensures forall i :: 0 <= i < |r| ==>
      r[i].skill == SkillLabel(SkillOrder[i]) && r[i].values == RadarValues(selected, visible, byPlayer, SkillOrder[i])
  {
    if |selected| == 0 then
      []
    else
      seq(|SkillOrder|, i requires 0 <= i < |SkillOrder| =>
            RadarRow(SkillLabel(SkillOrder[i]), RadarValues(selected, visible, byPlayer, SkillOrder[i])))
  }

  datatype BarValues = BarValues(overall: int, skills: Skills)

  /** A bar row: a player's name and latest scores, or only the unknown name. */
  datatype BarRow = BarRow(name: string, values: Option<BarValues>)

  function BarRowFor(id: string, visible: seq<Player>, byPlayer: map<string, seq<Evaluation>>): BarRow {
    match GetPlayerById(id, visible)
    case Some(p) =>
      if id in byPlayer && |byPlayer[id]| > 0 then
        var latest := Latest(byPlayer[id]);
        BarRow(p.name, Some(BarValues(ChartOverall(latest.skills), latest.skills)))
      else BarRow(UnknownName, None)
    case None => BarRow(UnknownName, None)
  }

  /**
   * getBarChartData: one row per selected id, in selection order. A charted
   * player's row carries its name, its latest evaluation's scores and their
   * whole-number rounded mean; any other id yields the unknown name only.
   */
  function BarChartData(selected: seq<string>, visible: seq<Player>, byPlayer: map<string, seq<Evaluation>>)
    : (r: seq<BarRow>)
    ensures |r| == |selected|
    ensures forall i :: 0 <= i < |r| ==> (r[i].values.Some? <==> Charted(selected[i], visible, byPlayer))
    ensures forall i :: 0 <= i < |r| && r[i].values.None? ==> r[i].name == UnknownName
    ensures forall i :: 0 <= i < |r| && Charted(selected[i], visible, byPlayer) ==>
      var latest := Latest(byPlayer[selected[i]]);
      && r[i].name == GetPlayerById(selected[i], visible).value.name
      && r[i].values.value.skills == latest.skills
      && 20 * r[i].values.value.overall <= 2 * ScoreSum(latest.skills) + 10 < 20 * (r[i].values.value.overall + 1)
  {
    if |selected| == 0 then
      []
    else
      seq(|selected|, i requires 0 <= i < |selected| => BarRowFor(selected[i], visible, byPlayer))
  }

  datatype TrendRow = TrendRow(date: int, overall: int, skills: Skills)

  /**
   * getTrendChartData: the first selected player's evaluations, one row each
   * in list order, with the whole-number chart overall; nothing when the
   * selection is empty, its first id is empty, or that id has no list.
   */
  function TrendChartData(selected: seq<string>, byPlayer: map<string, seq<Evaluation>>): (r: seq<TrendRow>)
    ensures |selected| == 0 || selected[0] == "" || selected[0] !in byPlayer ==> r == []
    ensures |selected| > 0 && selected[0] != "" && selected[0] in byPlayer ==>
      var evs := byPlayer[selected[0]];
      && |r| == |evs|
      && forall i :: 0 <= i < |r| ==>
           && r[i].date == evs[i].date
           && r[i].skills == evs[i].skills
           && 20 * r[i].overall <= 2 * ScoreSum(evs[i].skills) + 10 < 20 * (r[i].overall + 1)
  {
    if |selected| == 0 || selected[0] == "" || selected[0] !in byPlayer then []
    else
      var evs := byPlayer[selected[0]];
      seq(|evs|, i requires 0 <= i < |evs| => TrendRow(evs[i].date, ChartOverall(evs[i].skills), evs[i].skills))
  }

  /**
   * On the page's own per-player lists, the trend has one row per evaluation
   * of the first selected player, in ascending date order.
   */
  lemma TrendIsChronological(selected: seq<string>, evaluations: seq<Evaluation>)
    requires |selected| > 0 && selected[0] != ""
    ensures var r := TrendChartData(selected, EvaluationsBySelection(selected, evaluations));
      && |r| == |GetPlayerEvaluations(selected[0], evaluations)|
      && forall i, j :: 0 <= i < j < |r| ==> r[i].date <= r[j].date
  {
    var id := selected[0];
    var byPlayer := EvaluationsBySelection(selected, evaluations);
    var sorted := byPlayer[id];
    assert sorted == SortByDate(GetPlayerEvaluations(id, evaluations));
    assert |sorted| == |multiset(sorted)| == |multiset(GetPlayerEvaluations(id, evaluations))|;
  }
}

=== FILE: attendance_page.dfy ===
/**
 * The attendance-taking page: loading a team's roster with everyone marked
 * present, changing one player's status or notes, and building the payload
 * that is saved.
 *
 * The page keeps its marks in a JavaScript object keyed by player id. Such
 * an object lists its keys in insertion order and assigning an existing key
 * keeps its place; `Marks` models it as a map plus that key order.
 */
module AttendanceRoster {
  import opened Common
  import opened Records
  import DataIndex

  /**
   * One player's mark. Every field is optional because a change to a
   * player without an entry spreads `undefined` and so creates an entry
   * holding only the changed field.
   */
  datatype Entry = Entry(playerId: Option<string>, status: Option<AttendanceStatus>, notes: Option<string>)

  /** The mark a freshly loaded roster gives each player: present, no notes. */
  function DefaultEntry(id: string): Entry {
    Entry(Some(id), Some(Present), Some(""))
  }

  /** An object keyed by player id, with its keys in insertion order. */
  datatype Marks = Marks(order: seq<string>, entries: map<string, Entry>)

  /** The key order lists each key of the map exactly once. */
  ghost predicate Valid(m: Marks) {
    NoDups(m.order) && forall k :: k in m.entries <==> k in m.order
  }

  const NoMarks: Marks := Marks([], map[])

  /** `obj[key] = e`: a new key goes last, an existing key keeps its place. */
  function Put(m: Marks, key: string, e: Entry): (r: Marks)
    requires Valid(m)
    ensures Valid(r)
    ensures r.entries == m.entries[key := e]
    ensures r.order == if key in m.entries then m.order else m.order + [key]
  {
    if key in m.entries then Marks(m.order, m.entries[key := e])
    else Marks(m.order + [key], m.entries[key := e])
  }

  /** The ids of a list of players, in order. */
  function PlayerIds(players: seq<Player>): (r: seq<string>)
    ensures |r| == |players|
    ensures forall i :: 0 <= i < |players| ==> r[i] == players[i].id
  {
    seq(|players|, i requires 0 <= i < |players| => players[i].id)
  }

  /** Marks in which every entry is the default one for its key. */
  ghost predicate AllDefault(m: Marks) {
    forall k :: k in m.entries ==> m.entries[k] == DefaultEntry(k)
  }

  /** One step of the roster's `forEach`: the next id gets its default entry. */
  lemma DefaultStep(m: Marks, ids: seq<string>, id: string)
    requires Valid(m) && AllDefault(m) && m.order == Distinct(ids)
    ensures var r := Put(m, id, DefaultEntry(id));
      AllDefault(r) && r.order == Distinct(ids + [id])
  {
    DistinctSnoc(ids, id);
    assert id in m.entries <==> id in Distinct(ids);
  }

  /**
   * The object the roster's `forEach` builds from the players' ids: one
   * default entry per distinct id, keyed in order of first appearance.
   */
  function DefaultMarksOf(ids: seq<string>): (r: Marks)
    ensures Valid(r)
    ensures AllDefault(r)
    ensures r.order == Distinct(ids)
  {
    if |ids| == 0 then NoMarks
    else
      var init := ids[..|ids| - 1];
      var id := ids[|ids| - 1];
      var m := DefaultMarksOf(init);
      assert ids == init + [id];
      DefaultStep(m, init, id);
      Put(m, id, DefaultEntry(id))
  }

  function DefaultMarks(roster: seq<Player>): (r: Marks)
    ensures Valid(r)
    ensures AllDefault(r)
    ensures r.order == Distinct(PlayerIds(roster))
  {
    DefaultMarksOf(PlayerIds(roster))
  }

  /** The page state: the loaded roster and the marks. */
  datatype Page = Page(players: seq<Player>, marks: Marks)

  /** The players of one team, in list order: the same selection as `filterPlayersByTeam`. */
  function TeamRoster(allPlayers: seq<Player>, team: string): (r: seq<Player>)
    ensures forall i :: 0 <= i < |r| ==> r[i].team == team
    ensures forall p :: multiset(r)[p] == if p.team == team then multiset(allPlayers)[p] else 0
    ensures IsSubsequence(r, allPlayers)
  {
    DataIndex.FilterPlayersByTeam(team, allPlayers)
  }

  /**
   * fetchPlayers: nothing happens while no team is chosen; otherwise the
   * roster becomes the team's players, and the marks are replaced by
   * default ones only when that roster is non-empty (a team without
   * players keeps the previous marks).
   */
  function FetchPlayers(page: Page, allPlayers: seq<Player>, team: string): (r: Page)
    ensures team == "" ==> r == page
    ensures team != "" ==> r.players == TeamRoster(allPlayers, team)
    ensures team != "" && |r.players| > 0 ==> r.marks == DefaultMarks(r.players)
    ensures team != "" && |r.players| == 0 ==> r.marks == page.marks
  {
    if team == "" then page
    else
      var roster := TeamRoster(allPlayers, team);
      if |roster| > 0 then Page(roster, DefaultMarks(roster)) else Page(roster, page.marks)
  }

  /** The entry to update: the current one, or an all-absent one when the player has none. */
  function Current(entries: map<string, Entry>, id: string): Entry {
    if id in entries then entries[id] else Entry(None, None, None)
  }

  /** `{ ...prev, [id]: { ...prev[id], status } }` on the entries alone. */
  function WithStatus(entries: map<string, Entry>, id: string, status: AttendanceStatus): map<string, Entry> {
    entries[id := Current(entries, id).(status := Some(status))]
  }

  /** `{ ...prev, [id]: { ...prev[id], notes } }` on the entries alone. */
  function WithNotes(entries: map<string, Entry>, id: string, notes: string): map<string, Entry> {
    entries[id := Current(entries, id).(notes := Some(notes))]
  }

  /** handleStatusChange: only that player's status changes. */
  function StatusChange(m: Marks, id: string, status: AttendanceStatus): (r: Marks)
    requires Valid(m)
    ensures Valid(r)
    ensures id in r.entries && r.entries[id].status == Some(status)
    ensures r.entries[id].playerId == Current(m.entries, id).playerId
    ensures r.entries[id].notes == Current(m.entries, id).notes
    ensures forall k :: k != id ==> (k in r.entries <==> k in m.entries)
    ensures forall k :: k != id && k in m.entries ==> r.entries[k] == m.entries[k]
    ensures r.order == if id in m.entries then m.order else m.order + [id]
    ensures r.entries == WithStatus(m.entries, id, status)
  {
    Put(m, id, Current(m.entries, id).(status := Some(status)))
  }

  /** handleNotesChange: only that player's notes change. */
  function NotesChange(m: Marks, id: string, notes: string): (r: Marks)
    requires Valid(m)
    ensures Valid(r)
    ensures id in r.entries && r.entries[id].notes == Some(notes)
    ensures r.entries[id].playerId == Current(m.entries, id).playerId
    ensures r.entries[id].status == Current(m.entries, id).status
    ensures forall k :: k != id ==> (k in r.entries <==> k in m.entries)
    ensures forall k :: k != id && k in m.entries ==> r.entries[k] == m.entries[k]
    ensures r.order == if id in m.entries then m.order else m.order + [id]
    ensures r.entries == WithNotes(m.entries, id, notes)
  {
    Put(m, id, Current(m.entries, id).(notes := Some(notes)))
  }

  /** Setting a status twice is setting it once. */
  lemma StatusChangeIdempotent(m: Marks, id: string, status: AttendanceStatus)
    requires Valid(m)
    ensures StatusChange(StatusChange(m, id, status), id, status) == StatusChange(m, id, status)
  {
  }

  /** The two updates touch different fields, or different keys, so their order does not matter. */
  lemma EntriesCommute(entries: map<string, Entry>, a: string, status: AttendanceStatus, b: string, notes: string)
    ensures WithStatus(WithNotes(entries, b, notes), a, status) == WithNotes(WithStatus(entries, a, status), b, notes)
  {
    var e := Current(entries, b).(notes := Some(notes));
    var f := Current(entries, a).(status := Some(status));
    if a == b {
      assert e.(status := Some(status)) == f.(notes := Some(notes));
    } else {
      assert Current(entries[b := e], a) == Current(entries, a);
      assert Current(entries[a := f], b) == Current(entries, b);
      assert entries[b := e][a := f] == entries[a := f][b := e];
    }
  }

  /**
   * A status change and a notes change, for the same or different players,
   * give the same entries in either order. The key order, and with it the
   * order of the saved rows, is the same too unless both players are new
   * and different: then whichever was changed first comes first.
   */
  lemma StatusAndNotesCommute(m: Marks, a: string, status: AttendanceStatus, b: string, notes: string)
    requires Valid(m)
    ensures StatusChange(NotesChange(m, b, notes), a, status).entries
         == NotesChange(StatusChange(m, a, status), b, notes).entries
    ensures StatusChange(NotesChange(m, b, notes), a, status).order
         == NotesChange(StatusChange(m, a, status), b, notes).order
        <==> a == b || a in m.entries || b in m.entries
  {
    EntriesCommute(m.entries, a, status, b, notes);
    if a != b && a !in m.entries && b !in m.entries {
      var notesFirst := StatusChange(NotesChange(m, b, notes), a, status).order;
      var statusFirst := NotesChange(StatusChange(m, a, status), b, notes).order;
      assert notesFirst == m.order + [b] + [a];
      assert statusFirst == m.order + [a] + [b];
      assert notesFirst[|m.order|] != statusFirst[|m.order|];
    }
  }

  /** One saved row (`player_id`, `session_date`, `status`, `notes`). */
  datatype AttendanceRow = AttendanceRow(
    playerId: Option<string>,
    sessionDate: string,
    status: Option<AttendanceStatus>,
    notes: Option<string>)

  datatype SavePayload = SavePayload(date: string, team: string, rows: seq<AttendanceRow>)

  /** `data.notes || null`: empty notes are saved as absent. */
  function SavedNotes(notes: Option<string>): (r: Option<string>)
    ensures r.Some? <==> notes.Some? && notes.value != ""
    ensures r.Some? ==> r == notes
  {
    match notes
    case Some(n) => if n == "" then None else Some(n)
    case None => None
  }

  function RowOf(date: string, e: Entry): AttendanceRow {
    AttendanceRow(e.playerId, date, e.status, SavedNotes(e.notes))
  }

  /** The key order is empty exactly when the map is. */
  lemma EmptyMarks(m: Marks)
    requires Valid(m)
    ensures |m.order| == 0 <==> |m.entries| == 0
  {
    if |m.order| > 0 {
      assert m.order[0] in m.entries;
    }
    if |m.entries| > 0 {
      var k :| k in m.entries;
      assert k in m.order;
    }
  }

  /**
   * handleSaveAttendance: no payload unless a team and a date are chosen
   * and there is at least one mark; otherwise one row per mark, in key
   * order, carrying the session date.
   */
  function SaveAttendance(team: string, date: string, m: Marks): (r: Option<SavePayload>)
    requires Valid(m)
    ensures r.None? <==> team == "" || date == "" || |m.entries| == 0
    ensures r.Some? ==> r.value.team == team && r.value.date == date && |r.value.rows| == |m.order|
    ensures r.Some? ==> forall i :: 0 <= i < |m.order| ==>
      m.order[i] in m.entries && r.value.rows[i] == RowOf(date, m.entries[m.order[i]])
  {
    EmptyMarks(m);
    if team == "" || date == "" || |m.order| == 0 then None
    else
      Some(SavePayload(date, team,
        seq(|m.order|, i requires 0 <= i < |m.order| => RowOf(date, m.entries[m.order[i]]))))
  }

  /** The rows saved for default marks: each player present, with no notes. */
  function PresentRows(ids: seq<string>, date: string): (r: seq<AttendanceRow>)
    ensures |r| == |ids|
    ensures forall i :: 0 <= i < |ids| ==> r[i] == AttendanceRow(Some(ids[i]), date, Some(Present), None)
  {
    seq(|ids|, i requires 0 <= i < |ids| => AttendanceRow(Some(ids[i]), date, Some(Present), None))
  }

  /** Saving marks that are all defaults gives a present row per key, in key order. */
  lemma SaveDefaults(team: string, date: string, m: Marks)
    requires Valid(m)
    requires team != "" && date != "" && |m.order| > 0
    requires AllDefault(m)
    ensures SaveAttendance(team, date, m) == Some(SavePayload(date, team, PresentRows(m.order, date)))
  {
    EmptyMarks(m);
    var r := SaveAttendance(team, date, m);
    assert r.value.rows == PresentRows(m.order, date) by {
      forall i | 0 <= i < |m.order| ensures r.value.rows[i] == PresentRows(m.order, date)[i] {
        assert m.entries[m.order[i]] == DefaultEntry(m.order[i]);
      }
    }
  }

  /**
   * The save button is shown only while a team is chosen and its roster
   * is non-empty.
   */
  predicate SaveShown(page: Page, team: string) {
    team != "" && |page.players| > 0
  }

  /**
   * Saving a freshly loaded roster: one row per distinct player, in roster
   * order, each present with no notes.
   */
  lemma FreshRosterSaved(page: Page, allPlayers: seq<Player>, team: string, date: string)
    requires date != ""
    requires SaveShown(FetchPlayers(page, allPlayers, team), team)
    ensures var p := FetchPlayers(page, allPlayers, team);
      SaveAttendance(team, date, p.marks)
        == Some(SavePayload(date, team, PresentRows(Distinct(PlayerIds(p.players)), date)))
  {
    var p := FetchPlayers(page, allPlayers, team);
    var roster := p.players;
    assert p.marks == DefaultMarks(roster);
    assert PlayerIds(roster)[0] in Distinct(PlayerIds(roster));
    SaveDefaults(team, date, p.marks);
  }

  /** An id on a team's roster is the id of a player of that team in the full list. */
  lemma RosterMember(allPlayers: seq<Player>, team: string, k: string) returns (j: nat)
    requires k in PlayerIds(TeamRoster(allPlayers, team))
    ensures j < |allPlayers| && allPlayers[j].team == team && allPlayers[j].id == k
  {
    var roster := TeamRoster(allPlayers, team);
    var n :| 0 <= n < |roster| && PlayerIds(roster)[n] == k;
    assert roster[n] in multiset(roster);
    assert roster[n] in multiset(allPlayers);
    j :| 0 <= j < |allPlayers| && allPlayers[j] == roster[n];
  }

  /**
   * Right after a load that shows the save button, every row that would be
   * saved belongs to a player of the chosen team: marks left over from an
   * earlier team survive only behind an empty roster, where no save button
   * is shown.
   */
  lemma SavedRowsBelongToTeam(page: Page, allPlayers: seq<Player>, team: string, date: string)
    requires SaveShown(FetchPlayers(page, allPlayers, team), team)
    ensures var p := FetchPlayers(page, allPlayers, team);
      var r := SaveAttendance(team, date, p.marks);
      r.Some? ==> forall i :: 0 <= i < |r.value.rows| ==>
        exists j :: 0 <= j < |allPlayers| && allPlayers[j].team == team
                 && r.value.rows[i].playerId == Some(allPlayers[j].id)
  {
    var p := FetchPlayers(page, allPlayers, team);
    var r := SaveAttendance(team, date, p.marks);
    if r.Some? {
      FreshRosterSaved(page, allPlayers, team, date);
      var ids := Distinct(PlayerIds(p.players));
      assert r.value.rows == PresentRows(ids, date);
      forall i | 0 <= i < |r.value.rows|
        ensures exists j :: 0 <= j < |allPlayers| && allPlayers[j].team == team && r.value.rows[i].playerId == Some(allPlayers[j].id)
      {
        assert r.value.rows[i].playerId == Some(ids[i]);
        assert ids[i] in ids;
        var j := RosterMember(allPlayers, team, ids[i]);
      }
    }
  }
}

=== FILE: common.dfy ===
/**
 * Shared vocabulary of the model: an optional value (the source's
 * `undefined`/`null`), the `Math.round` of a quotient on exact integers,
 * sums, and the order-preserving array operations (`filter`, `find`,
 * de-duplication through a `Set`, `includes`, `toLowerCase`) that every
 * page of the application is built from.
 */
module Common {

  datatype Option<T> = None | Some(value: T) {
    /** The value, or `default` when absent (the source's `x || default` on a present/absent value). */
    function GetOr(default: T): T {
      match this
      case Some(v) => v
      case None => default
    }
  }

  // ---------------------------------------------------------------------------
  // Rounding

  /**
   * `Math.round(n / d)` computed exactly: the integer nearest to n/d, with
   * halves rounded up (towards +infinity, as `Math.round` does).
   */
  function RoundDiv(n: int, d: int): (r: int)
    requires d > 0
    ensures 2 * d * r <= 2 * n + d < 2 * d * (r + 1)
  {
    var q := (2 * n + d) / (2 * d);
    assert 2 * n + d == 2 * d * q + (2 * n + d) % (2 * d);
    q
  }

  /** Cancelling a positive factor from a strict upper bound. */
  lemma MulCancel(x: int, y: int, c: int)
    requires c > 0
    requires c * x < c * (y + 1)
    ensures x <= y
  {
  }

  /** Rounding an exact multiple of the divisor changes nothing. */
  lemma RoundDivOfMultiple(k: int, d: int)
    requires d > 0
    ensures RoundDiv(k * d, d) == k
  {
    var r := RoundDiv(k * d, d);
    MulCancel(r, k, 2 * d);
    MulCancel(k, r, 2 * d);
  }

  /** Rounding is monotonic in the numerator. */
  lemma RoundDivMonotone(a: int, b: int, d: int)
    requires d > 0
    requires a <= b
    ensures RoundDiv(a, d) <= RoundDiv(b, d)
  {
    MulCancel(RoundDiv(a, d), RoundDiv(b, d), 2 * d);
  }

  /** A rounded share of a part k of a whole n, scaled by `scale`, lies in [0, scale]. */
  lemma RoundDivShareBounds(k: int, n: int, scale: nat)
    requires 0 <= k <= n
    requires n > 0
    ensures 0 <= RoundDiv(k * scale, n) <= scale
  {
    RoundDivOfMultiple(0, n);
    RoundDivOfMultiple(scale, n);
    assert k * scale <= n * scale by {
      assert (n - k) * scale >= 0;
    }
    RoundDivMonotone(0, k * scale, n);
    RoundDivMonotone(k * scale, scale * n, n);
  }

  // ---------------------------------------------------------------------------
  // Sums

  /** Left-to-right sum, `s.reduce((total, x) => total + x, 0)`. */
  function Sum(s: seq<int>): int
  {
    if |s| == 0 then 0 else Sum(s[..|s| - 1]) + s[|s| - 1]
  }

  /** The sum of a prefix one longer adds the next term. */
  lemma SumPrefixStep(s: seq<int>, k: int)
    requires 0 < k <= |s|
    ensures Sum(s[..k]) == Sum(s[..k - 1]) + s[k - 1]
  {
    assert s[..k][..k - 1] == s[..k - 1];
  }

  /** Taking the term at index i out of a sum. */
  lemma {:induction false} SumRemove(b: seq<int>, i: nat)
    requires i < |b|
    ensures Sum(b) == Sum(b[..i] + b[i + 1..]) + b[i]
    decreases |b|
  {
    var n := |b| - 1;
    var rest := b[..i] + b[i + 1..];
    if i == n {
      assert rest == b[..n];
    } else {
      var init := b[..n];
      var restInit := init[..i] + init[i + 1..];
      SumRemove(init, i);
      assert rest == restInit + [b[n]];
      assert rest[..|rest| - 1] == restInit;
    }
  }

  /** Taking the element at index i out of a sequence takes one copy out of its multiset. */
  lemma MultisetRemove<T>(b: seq<T>, i: nat)
    requires i < |b|
    ensures multiset(b[..i] + b[i + 1..]) == multiset(b) - multiset{b[i]}
  {
    assert b == b[..i] + [b[i]] + b[i + 1..];
  }

  /** A sum does not depend on the order of its terms. */
  lemma {:induction false} SumPermutation(a: seq<int>, b: seq<int>)
    requires multiset(a) == multiset(b)
    ensures Sum(a) == Sum(b)
    decreases |a|
  {
    if |a| == 0 {
      assert |b| == |multiset(b)| == 0;
    } else {
      var x := a[|a| - 1];
      var a' := a[..|a| - 1];
      assert a == a' + [x];
      assert x in multiset(b);
      var i :| 0 <= i < |b| && b[i] == x;
      MultisetRemove(b, i);
      MultisetRemove(a, |a| - 1);
      assert a[..|a| - 1] + a[|a|..] == a';
      SumPermutation(a', b[..i] + b[i + 1..]);
      SumRemove(b, i);
    }
  }

  /** Every term in [lo, hi] bounds the sum by |s| * lo and |s| * hi. */
  lemma {:induction false} SumBounds(s: seq<int>, lo: int, hi: int)
    requires forall i :: 0 <= i < |s| ==> lo <= s[i] <= hi
    ensures |s| * lo <= Sum(s) <= |s| * hi
    decreases |s|
  {
    if |s| > 0 {
      SumBounds(s[..|s| - 1], lo, hi);
    }
  }

  // ---------------------------------------------------------------------------
  // Order-preserving selection

  /** `a` is `b` with some elements dropped, the rest kept in order. */
  predicate IsSubsequence<T(==)>(a: seq<T>, b: seq<T>)
    decreases |b|
  {
    |a| == 0 || (|b| > 0 && ((a[0] == b[0] && IsSubsequence(a[1..], b[1..])) || IsSubsequence(a, b[1..])))
  }

  lemma {:induction false} SubsequenceOfSelf<T>(s: seq<T>)
    ensures IsSubsequence(s, s)
    decreases |s|
  {
    if |s| > 0 {
      SubsequenceOfSelf(s[1..]);
    }
  }

  lemma {:induction false} SubsequenceSnoc<T>(a: seq<T>, b: seq<T>, x: T)
    requires IsSubsequence(a, b)
    ensures IsSubsequence(a, b + [x])
    ensures IsSubsequence(a + [x], b + [x])
    decreases |b|
  {
    if |b| == 0 {
      assert |a| == 0;
      assert a + [x] == [x] == b + [x];
      assert [x][1..] == [];
    } else {
      assert (b + [x])[1..] == b[1..] + [x];
      if |a| > 0 && a[0] == b[0] && IsSubsequence(a[1..], b[1..]) {
        SubsequenceSnoc(a[1..], b[1..], x);
        assert (a + [x])[1..] == a[1..] + [x];
      } else if |a| > 0 {
        SubsequenceSnoc(a, b[1..], x);
      } else {
        assert a + [x] == [x];
        SubsequenceSnoc(a, b[1..], x);
      }
    }
  }

  /** Dropping elements in two stages is dropping them in one. */
  lemma {:induction false} SubsequenceTrans<T>(a: seq<T>, b: seq<T>, c: seq<T>)
    requires IsSubsequence(a, b) && IsSubsequence(b, c)
    ensures IsSubsequence(a, c)
    decreases |c|
  {
    if |a| > 0 {
      if IsSubsequence(b, c[1..]) {
        SubsequenceTrans(a, b, c[1..]);
      } else if a[0] == b[0] && IsSubsequence(a[1..], b[1..]) {
        SubsequenceTrans(a[1..], b[1..], c[1..]);
      } else {
        SubsequenceTrans(a, b[1..], c[1..]);
      }
    }
  }

  /** `s.filter(p)`: the elements satisfying `p`, in order, with their multiplicities. */
  function Filter<T(==,!new)>(s: seq<T>, p: T -> bool): (r: seq<T>)
    ensures |r| <= |s|
    ensures forall i :: 0 <= i < |r| ==> p(r[i])
    ensures forall x :: multiset(r)[x] == if p(x) then multiset(s)[x] else 0
    ensures IsSubsequence(r, s)
  {
    if |s| == 0 then []
    else
      var rest := Filter(s[1..], p);
      assert s == [s[0]] + s[1..];
      if p(s[0]) then
        assert ([s[0]] + rest)[1..] == rest;
        [s[0]] + rest
      else
        rest
  }

  lemma FilterMembership<T(!new)>(s: seq<T>, p: T -> bool, x: T)
    ensures x in Filter(s, p) <==> x in s && p(x)
  {
    assert x in Filter(s, p) <==> multiset(Filter(s, p))[x] > 0;
    assert x in s <==> multiset(s)[x] > 0;
  }

  lemma {:induction false} FilterConcat<T(!new)>(a: seq<T>, b: seq<T>, p: T -> bool)
    ensures Filter(a + b, p) == Filter(a, p) + Filter(b, p)
    decreases |a|
  {
    if |a| == 0 {
      assert a + b == b;
    } else {
      assert (a + b)[0] == a[0];
      assert (a + b)[1..] == a[1..] + b;
      FilterConcat(a[1..], b, p);
    }
  }

  /** Filtering twice by the same predicate is filtering once. */
  lemma {:induction false} FilterIdempotent<T(!new)>(s: seq<T>, p: T -> bool)
    ensures Filter(Filter(s, p), p) == Filter(s, p)
    decreases |s|
  {
    if |s| > 0 {
      FilterIdempotent(s[1..], p);
      var rest := Filter(s[1..], p);
      if p(s[0]) {
        assert ([s[0]] + rest)[0] == s[0];
        assert ([s[0]] + rest)[1..] == rest;
      }
    }
  }

  /** Filtering by `p` and then by `q` is filtering once by a predicate `pq` that means both. */
  lemma {:induction false} FilterCompose<T(!new)>(s: seq<T>, p: T -> bool, q: T -> bool, pq: T -> bool)
    requires forall i :: 0 <= i < |s| ==> pq(s[i]) == (p(s[i]) && q(s[i]))
    ensures Filter(Filter(s, p), q) == Filter(s, pq)
    decreases |s|
  {
    if |s| > 0 {
      FilterCompose(s[1..], p, q, pq);
      var rest := Filter(s[1..], p);
      if p(s[0]) {
        assert ([s[0]] + rest)[0] == s[0];
        assert ([s[0]] + rest)[1..] == rest;
      }
    }
  }

  /** Filters by predicates that agree on every element are equal. */
  lemma {:induction false} FilterExtensional<T(!new)>(s: seq<T>, p: T -> bool, q: T -> bool)
    requires forall i :: 0 <= i < |s| ==> p(s[i]) == q(s[i])
    ensures Filter(s, p) == Filter(s, q)
    decreases |s|
  {
    if |s| > 0 {
      FilterExtensional(s[1..], p, q);
    }
  }

  /** A filter that keeps everything is the identity. */
  lemma {:induction false} FilterAll<T(!new)>(s: seq<T>, p: T -> bool)
    requires forall i :: 0 <= i < |s| ==> p(s[i])
    ensures Filter(s, p) == s
    decreases |s|
  {
    if |s| > 0 {
      FilterAll(s[1..], p);
      assert s == [s[0]] + s[1..];
    }
  }

  /** No element occurs twice. */
  predicate NoDups<T(==)>(s: seq<T>) {
    forall i, j :: 0 <= i < j < |s| ==> s[i] != s[j]
  }

  /** Dropping the first element keeps a list free of duplicates. */
  lemma NoDupsTail<T>(s: seq<T>)
    requires |s| > 0 && NoDups(s)
    ensures NoDups(s[1..])
  {
    forall i, j | 0 <= i < j < |s| - 1 ensures s[1..][i] != s[1..][j] {
      assert s[1..][i] == s[i + 1];
      assert s[1..][j] == s[j + 1];
    }
  }

  /** Putting a new element in front of a list without duplicates keeps it so. */
  lemma NoDupsCons<T>(x: T, s: seq<T>)
    requires x !in s && NoDups(s)
    ensures NoDups([x] + s)
  {
    var r := [x] + s;
    forall i, j | 0 <= i < j < |r| ensures r[i] != r[j] {
      assert r[j] == s[j - 1];
      if i > 0 {
        assert r[i] == s[i - 1];
      }
    }
  }

  /** Filtering never introduces duplicates. */
  lemma {:induction false} FilterNoDups<T(!new)>(s: seq<T>, p: T -> bool)
    requires NoDups(s)
    ensures NoDups(Filter(s, p))
    decreases |s|
  {
    if |s| > 0 {
      NoDupsTail(s);
      FilterNoDups(s[1..], p);
      if p(s[0]) {
        FilterMembership(s[1..], p, s[0]);
        assert s[0] !in s[1..];
        NoDupsCons(s[0], Filter(s[1..], p));
      }
    }
  }

  /** `s.findIndex(p)`: the first index whose element satisfies `p`, if any. */
  function FindIndex<T>(s: seq<T>, p: T -> bool): (r: Option<nat>)
    ensures r.None? <==> forall i :: 0 <= i < |s| ==> !p(s[i])
    ensures r.Some? ==> r.value < |s| && p(s[r.value]) && forall j :: 0 <= j < r.value ==> !p(s[j])
  {
    FindFrom(s, p, 0)
  }

  function FindFrom<T>(s: seq<T>, p: T -> bool, from: nat): (r: Option<nat>)
    requires forall j :: 0 <= j < from && j < |s| ==> !p(s[j])
    ensures r.None? <==> forall i :: 0 <= i < |s| ==> !p(s[i])
    ensures r.Some? ==> r.value < |s| && p(s[r.value]) && forall j :: 0 <= j < r.value ==> !p(s[j])
    decreases |s| - from
  {
    if from >= |s| then None
    else if p(s[from]) then Some(from)
    else FindFrom(s, p, from + 1)
  }

  /** `s.find(p)`: the first element satisfying `p`, if any. */
  function Find<T>(s: seq<T>, p: T -> bool): (r: Option<T>)
    ensures r.None? <==> forall i :: 0 <= i < |s| ==> !p(s[i])
    ensures r.Some? ==> exists i :: 0 <= i < |s| && s[i] == r.value && p(s[i]) && forall j :: 0 <= j < i ==> !p(s[j])
  {
    match FindIndex(s, p)
    case Some(i) => Some(s[i])
    case None => None
  }

  /** `[...new Set(s)]`: the distinct elements, in order of first occurrence. */
  function Distinct<T(==,!new)>(s: seq<T>): (r: seq<T>)
    ensures NoDups(r)
    ensures forall x :: x in r <==> x in s
  {
    if |s| == 0 then []
    else
      var d := Distinct(s[..|s| - 1]);
      var x := s[|s| - 1];
      assert forall y :: y in s <==> y in s[..|s| - 1] || y == x by {
        assert s == s[..|s| - 1] + [x];
      }
      if x in d then d else d + [x]
  }

  /** The distinct elements keep the order of the list they come from. */
  lemma {:induction false} DistinctIsSubsequence<T(!new)>(s: seq<T>)
    ensures IsSubsequence(Distinct(s), s)
    decreases |s|
  {
    if |s| > 0 {
      var init := s[..|s| - 1];
      DistinctIsSubsequence(init);
      assert s == init + [s[|s| - 1]];
      SubsequenceSnoc(Distinct(init), init, s[|s| - 1]);
    }
  }

  /** A team name that counts as a choice: `filter(Boolean)` drops the empty one. */
  predicate Named(t: string) {
    t != ""
  }

  /**
   * The team choices a page offers: `[...new Set(teams)].filter(Boolean)`,
   * so each non-empty name once and the empty name never.
   */
  function TeamOptions(teams: seq<string>): (r: seq<string>)
    ensures NoDups(r)
    ensures forall t :: t in r <==> t in teams && t != ""
  {
    var d := Distinct(teams);
    FilterNoDups(d, Named);
    forall t ensures t in Filter(d, Named) <==> t in teams && t != "" {
      FilterMembership(d, Named, t);
    }
    Filter(d, Named)
  }

  /** Appending an element extends the distinct list exactly when the element is new. */
  lemma DistinctSnoc<T(!new)>(s: seq<T>, x: T)
    ensures Distinct(s + [x]) == if x in s then Distinct(s) else Distinct(s) + [x]
  {
    assert (s + [x])[..|s + [x]| - 1] == s;
  }

  /** Appending a team name adds it to the choices exactly when it is new and not empty. */
  lemma TeamOptionsSnoc(teams: seq<string>, t: string)
    ensures TeamOptions(teams + [t]) == if t == "" || t in teams then TeamOptions(teams) else TeamOptions(teams) + [t]
  {
    var d := Distinct(teams);
    DistinctSnoc(teams, t);
    if t !in teams {
      FilterConcat(d, [t], Named);
      assert Filter([t], Named) == if t == "" then [] else [t] by {
        assert [t][1..] == [];
      }
    }
  }

  /** `x` occurs in `s` before `y` does (and `y` may not occur at all). */
  ghost predicate OccursBefore<T>(s: seq<T>, x: T, y: T) {
    exists k :: 0 <= k < |s| && s[k] == x && y !in s[..k + 1]
  }

  /**
   * `r` lists elements of `s` in the order of their first occurrence: every
   * element of `r` occurs in `s` before any later element of `r` does.
   */
  ghost predicate FirstAppearanceOrder<T>(r: seq<T>, s: seq<T>) {
    forall i, j :: 0 <= i < j < |r| ==> OccursBefore(s, r[i], r[j])
  }

  /** Appending to `s` keeps an occurrence before; a new `y` occurs after every element of `s`. */
  lemma OccursBeforeSnoc<T>(s: seq<T>, x: T, y: T, t: T)
    requires OccursBefore(s, x, y) || (x in s && y == t && t !in s)
    ensures OccursBefore(s + [t], x, y)
  {
    var k :| 0 <= k < |s| && s[k] == x && (y !in s[..k + 1] || (y == t && t !in s));
    assert (s + [t])[..k + 1] == s[..k + 1];
    assert (s + [t])[k] == x;
    if y == t && t !in s {
      assert forall z :: z in s[..k + 1] ==> z in s;
    }
  }

  /** Appending to the source list keeps the order; appending a new element to both extends it. */
  lemma FirstAppearanceSnoc<T>(r: seq<T>, s: seq<T>, t: T)
    requires FirstAppearanceOrder(r, s)
    requires forall x :: x in r ==> x in s
    ensures FirstAppearanceOrder(r, s + [t])
    ensures t !in s ==> FirstAppearanceOrder(r + [t], s + [t])
  {
    forall i, j | 0 <= i < j < |r| ensures OccursBefore(s + [t], r[i], r[j]) {
      OccursBeforeSnoc(s, r[i], r[j], t);
    }
    if t !in s {
      var r' := r + [t];
      forall i, j | 0 <= i < j < |r'| ensures OccursBefore(s + [t], r'[i], r'[j]) {
        assert r'[i] == r[i];
        if j < |r| {
          assert r'[j] == r[j];
        } else {
          assert r'[j] == t;
          OccursBeforeSnoc(s, r[i], t, t);
        }
      }
    }
  }

  /** The team choices keep the order in which the teams first appear in the list. */
  lemma {:induction false} TeamOptionsKeepOrder(teams: seq<string>)
    ensures IsSubsequence(TeamOptions(teams), teams)
    ensures FirstAppearanceOrder(TeamOptions(teams), teams)
    decreases |teams|
  {
    DistinctIsSubsequence(teams);
    SubsequenceTrans(Filter(Distinct(teams), Named), Distinct(teams), teams);
    if |teams| > 0 {
      var init := teams[..|teams| - 1];
      var t := teams[|teams| - 1];
      TeamOptionsKeepOrder(init);
      assert teams == init + [t];
      TeamOptionsSnoc(init, t);
      FirstAppearanceSnoc(TeamOptions(init), init, t);
    }
  }

  /** Whether entry j of a list of optional key/value writes assigns `key`. */
  predicate WritesKey<K(==), V>(es: seq<Option<(K, V)>>, j: int, key: K)
    requires 0 <= j < |es|
  {
    es[j].Some? && es[j].value.0 == key
  }

  /** Every key of `r` is written by some entry of `es`, and only those. */
  ghost predicate KeysWritten<K(!new), V>(es: seq<Option<(K, V)>>, r: map<K, V>) {
    forall key :: key in r <==> exists j :: 0 <= j < |es| && WritesKey(es, j, key)
  }

  /** Every key of `r` holds the value of the last entry of `es` that writes it. */
  ghost predicate LastValues<K(!new), V>(es: seq<Option<(K, V)>>, r: map<K, V>) {
    forall key :: key in r ==>
      exists j :: 0 <= j < |es| && es[j] == Some((key, r[key]))
               && forall j' :: j < j' < |es| ==> !WritesKey(es, j', key)
  }

  /** One assignment `m[key] = value`, or none. */
  function Assign<K, V>(m: map<K, V>, e: Option<(K, V)>): map<K, V> {
    match e
    case None => m
    case Some(kv) => m[kv.0 := kv.1]
  }

  lemma KeysWrittenStep<K(!new), V>(es: seq<Option<(K, V)>>, m: map<K, V>)
    requires |es| > 0 && KeysWritten(es[..|es| - 1], m)
    ensures KeysWritten(es, Assign(m, es[|es| - 1]))
  {
    var n := |es| - 1;
    var init := es[..n];
    var r := Assign(m, es[n]);
    forall key ensures key in r <==> exists j :: 0 <= j < |es| && WritesKey(es, j, key) {
      if key in r && !WritesKey(es, n, key) {
        var j :| 0 <= j < n && WritesKey(init, j, key);
        assert WritesKey(es, j, key);
      }
      if exists j :: 0 <= j < |es| && WritesKey(es, j, key) {
        var j :| 0 <= j < |es| && WritesKey(es, j, key);
        if j < n {
          assert WritesKey(init, j, key);
        }
      }
    }
  }

  lemma LastValuesStep<K(!new), V>(es: seq<Option<(K, V)>>, m: map<K, V>)
    requires |es| > 0 && LastValues(es[..|es| - 1], m)
    ensures LastValues(es, Assign(m, es[|es| - 1]))
  {
    var n := |es| - 1;
    var init := es[..n];
    var r := Assign(m, es[n]);
    forall key | key in r ensures
      exists j :: 0 <= j < |es| && es[j] == Some((key, r[key]))
               && forall j' :: j < j' < |es| ==> !WritesKey(es, j', key) {
      if !WritesKey(es, n, key) {
        var j :| 0 <= j < n && init[j] == Some((key, m[key]))
               && forall j' :: j < j' < n ==> !WritesKey(init, j', key);
        forall j' | j < j' < |es| ensures !WritesKey(es, j', key) {
          if j' < n {
            assert !WritesKey(init, j', key);
          }
        }
        assert es[j] == Some((key, r[key]));
      } else {
        assert es[n] == Some((key, r[key]));
      }
    }
  }

  /**
   * The object built by the assignments `m[key] = value` of the present
   * entries, in order: a key is present exactly when some entry writes it,
   * and holds the value of the last entry that does.
   */
  function LastWins<K(==,!new), V(!new)>(es: seq<Option<(K, V)>>): (r: map<K, V>)
    ensures forall key :: key in r <==> exists j :: 0 <= j < |es| && WritesKey(es, j, key)
    ensures forall key :: key in r ==>
      exists j :: 0 <= j < |es| && es[j] == Some((key, r[key]))
               && forall j' :: j < j' < |es| ==> !WritesKey(es, j', key)
  {
    if |es| == 0 then map[]
    else
      var m := LastWins(es[..|es| - 1]);
      KeysWrittenStep(es, m);
      LastValuesStep(es, m);
      Assign(m, es[|es| - 1])
  }

  /** Whether item x writes `key` through the entry function f. */
  predicate WritesVia<T, K(==), V>(f: T -> Option<(K, V)>, x: T, key: K) {
    f(x).Some? && f(x).value.0 == key
  }

  /** `xs.forEach(x => { if (f(x) is some (k, v)) m[k] = v; })`: the last item to write a key wins. */
  function LastWinsOf<T, K(==,!new), V(!new)>(xs: seq<T>, f: T -> Option<(K, V)>): (r: map<K, V>)
    ensures forall key :: key in r <==> exists j :: 0 <= j < |xs| && WritesVia(f, xs[j], key)
    ensures forall key :: key in r ==>
      exists j :: 0 <= j < |xs| && f(xs[j]) == Some((key, r[key]))
               && forall j' :: j < j' < |xs| ==> !WritesVia(f, xs[j'], key)
  {
    var es := seq(|xs|, j requires 0 <= j < |xs| => f(xs[j]));
    var r := LastWins(es);
    assert forall j, key :: 0 <= j < |xs| ==> (WritesKey(es, j, key) <==> WritesVia(f, xs[j], key));
    r
  }

  // ---------------------------------------------------------------------------
  // Strings

  /** `s.includes(q)`: `q` occurs in `s` as a contiguous run. */
  predicate Contains(s: string, q: string)
    decreases |s|
  {
    q <= s || (|s| > 0 && Contains(s[1..], q))
  }

  /** The lower-case counterpart of an upper-case Latin letter; every other character is its own. */
  function LowerChar(c: char): char {
    if 'A' <= c <= 'Z' then (c as int + 32) as char else c
  }

  /** `s.toLowerCase()` restricted to ASCII: each character lowered on its own by `LowerChar`. */
  function ToLower(s: string): (r: string)
    ensures |r| == |s|
    ensures forall i :: 0 <= i < |s| ==> r[i] == LowerChar(s[i])
  {
    seq(|s|, i requires 0 <= i < |s| => LowerChar(s[i]))
  }

  /** Case-insensitive containment, as the search boxes compute it. */
  predicate ContainsIgnoringCase(s: string, q: string) {
    Contains(ToLower(s), ToLower(q))
  }

  /** An empty query is contained in every string. */
  lemma EmptyQueryMatches(s: string)
    ensures Contains(s, "")
    ensures ContainsIgnoringCase(s, "")
  {
    assert ToLower("") == "";
  }

  /** Lower-casing distributes over concatenation. */
  lemma LowerConcat(a: string, b: string)
    ensures ToLower(a + b) == ToLower(a) + ToLower(b)
  {
  }

  /** A string that contains `q + more` contains `q`. */
  lemma {:induction false} ContainsPrefix(s: string, q: string, more: string)
    requires Contains(s, q + more)
    ensures Contains(s, q)
    decreases |s|
  {
    if q + more <= s {
      assert q <= s by {
        assert s[..|q|] == (q + more)[..|q|] == q;
      }
    } else {
      ContainsPrefix(s[1..], q, more);
    }
  }
}

=== FILE: dashboard.dfy ===
/**
 * The dashboard summary: totals, the number of players per team (in order
 * of each team's first appearance), the team with the most players, and
 * the first five players of the list.
 */
module Dashboard {
  import opened Common
  import opened Records
  import opened Evaluations

  /** One entry of `playersCountByTeam`. */
  datatype TeamCount = TeamCount(name: string, count: nat)

  /** The team names of a histogram, in its order. */
  function Names(h: seq<TeamCount>): (r: seq<string>)
    ensures |r| == |h|
    ensures forall i :: 0 <= i < |h| ==> r[i] == h[i].name
  {
    seq(|h|, i requires 0 <= i < |h| => h[i].name)
  }

  /** The number of players whose team is exactly `t`. */
  function CountTeam(players: seq<Player>, t: string): nat
  {
    if |players| == 0 then 0
    else CountTeam(players[..|players| - 1], t) + (if players[|players| - 1].team == t then 1 else 0)
  }

  /** A team nobody plays for has count zero, and one somebody plays for has a positive count. */
  lemma {:induction false} CountTeamPositive(players: seq<Player>, t: string)
    ensures CountTeam(players, t) > 0 <==> t in TeamsOf(players)
    decreases |players|
  {
    if |players| > 0 {
      var init := players[..|players| - 1];
      CountTeamPositive(init, t);
      assert TeamsOf(players) == TeamsOf(init) + [players[|players| - 1].team];
    }
  }

  /**
   * `teamsCount[t] = (teamsCount[t] || 0) + 1` on an object whose keys
   * keep their insertion order: the entry for `t` goes up by one, or a new
   * entry with count 1 is appended.
   */
  function Bump(h: seq<TeamCount>, t: string): (r: seq<TeamCount>)
    requires NoDups(Names(h))
    ensures Names(r) == if t in Names(h) then Names(h) else Names(h) + [t]
    ensures NoDups(Names(r))
    ensures forall i :: 0 <= i < |r| ==>
      r[i].count == (if i < |h| then h[i].count else 0) + (if r[i].name == t then 1 else 0)
  {
    match FindIndex(h, (e: TeamCount) => e.name == t)
    case Some(i) =>
      var r := h[i := TeamCount(t, h[i].count + 1)];
      assert Names(r) == Names(h);
      assert t in Names(h) by {
        assert Names(h)[i] == t;
      }
      r
    case None =>
      var r := h + [TeamCount(t, 1)];
      assert t !in Names(h);
      assert Names(r) == Names(h) + [t];
      r
  }

  /**
   * `h` counts the players by team: each non-empty team of the players once,
   * with its number of players.
   */
  ghost predicate IsHistogram(players: seq<Player>, h: seq<TeamCount>) {
    && NoDups(Names(h))
    && (forall t :: t in Names(h) <==> t != "" && t in TeamsOf(players))
    && (forall i :: 0 <= i < |h| ==> h[i].count == CountTeam(players, h[i].name) >= 1)
  }

  /** A player without a team leaves the histogram as it is. */
  lemma HistogramSkip(players: seq<Player>, h: seq<TeamCount>)
    requires |players| > 0 && players[|players| - 1].team == ""
    requires IsHistogram(players[..|players| - 1], h)
    ensures IsHistogram(players, h)
  {
    var init := players[..|players| - 1];
    assert TeamsOf(players) == TeamsOf(init) + [""];
    forall i | 0 <= i < |h| ensures h[i].name != "" {
      assert Names(h)[i] in Names(h);
    }
  }

  /** Bumping the last player's team keeps every count equal to that team's number of players. */
  lemma BumpCounts(players: seq<Player>, h: seq<TeamCount>)
    requires |players| > 0 && players[|players| - 1].team != ""
    requires IsHistogram(players[..|players| - 1], h)
    ensures var r := Bump(h, players[|players| - 1].team);
      forall i :: 0 <= i < |r| ==> r[i].count == CountTeam(players, r[i].name) >= 1
  {
    var init := players[..|players| - 1];
    var t := players[|players| - 1].team;
    var r := Bump(h, t);
    forall i | 0 <= i < |r| ensures r[i].count == CountTeam(players, r[i].name) >= 1 {
      var x := r[i].name;
      assert CountTeam(players, x) == CountTeam(init, x) + (if x == t then 1 else 0);
      if i < |h| {
        assert Names(r)[i] == Names(h)[i];
      } else {
        assert Names(r) == Names(h) + [t];
        assert t !in Names(h);
        CountTeamPositive(init, t);
      }
    }
  }

  /** A player with a team bumps that team's entry. */
  lemma HistogramBump(players: seq<Player>, h: seq<TeamCount>)
    requires |players| > 0 && players[|players| - 1].team != ""
    requires IsHistogram(players[..|players| - 1], h)
    ensures IsHistogram(players, Bump(h, players[|players| - 1].team))
  {
    var init := players[..|players| - 1];
    var t := players[|players| - 1].team;
    assert TeamsOf(players) == TeamsOf(init) + [t];
    BumpCounts(players, h);
  }

  /**
   * playersCountByTeam: one entry per non-empty team name, in order of the
   * team's first appearance in the player list, holding that team's
   * number of players. Players with an empty team are skipped.
   */
  function TeamHistogram(players: seq<Player>): (r: seq<TeamCount>)
    ensures NoDups(Names(r))
    ensures forall t :: t in Names(r) <==> t != "" && t in TeamsOf(players)
    ensures forall i :: 0 <= i < |r| ==> r[i].count == CountTeam(players, r[i].name) >= 1
  {
    if |players| == 0 then []
    else
      var h := TeamHistogram(players[..|players| - 1]);
      var t := players[|players| - 1].team;
      if t == "" then
        HistogramSkip(players, h);
        h
      else
        HistogramBump(players, h);
        Bump(h, t)
  }

  /** Adding a player to the end lists their team last if it is new and not empty. */
  lemma HistogramSnoc(players: seq<Player>)
    requires |players| > 0
    ensures var init := players[..|players| - 1];
      var t := players[|players| - 1].team;
      Names(TeamHistogram(players))
        == if t == "" || t in TeamsOf(init) then Names(TeamHistogram(init)) else Names(TeamHistogram(init)) + [t]
  {
    var init := players[..|players| - 1];
    var t := players[|players| - 1].team;
    if t != "" {
      assert t in Names(TeamHistogram(init)) <==> t in TeamsOf(init);
    }
  }

  /** Adding a player to the end offers their team last if it is new and not empty. */
  lemma OptionsSnoc(players: seq<Player>)
    requires |players| > 0
    ensures var init := players[..|players| - 1];
      var t := players[|players| - 1].team;
      TeamOptions(TeamsOf(players))
        == if t == "" || t in TeamsOf(init) then TeamOptions(TeamsOf(init)) else TeamOptions(TeamsOf(init)) + [t]
  {
    var init := players[..|players| - 1];
    var t := players[|players| - 1].team;
    assert TeamsOf(players) == TeamsOf(init) + [t];
    TeamOptionsSnoc(TeamsOf(init), t);
  }

  /** One player more keeps the histogram's names equal to the team options. */
  lemma HistogramOrderStep(players: seq<Player>)
    requires |players| > 0
    requires Names(TeamHistogram(players[..|players| - 1])) == TeamOptions(TeamsOf(players[..|players| - 1]))
    ensures Names(TeamHistogram(players)) == TeamOptions(TeamsOf(players))
  {
    HistogramSnoc(players);
    OptionsSnoc(players);
  }

  /** The histogram lists the teams in the order the team filters offer them. */
  lemma {:induction false} HistogramOrder(players: seq<Player>)
    ensures Names(TeamHistogram(players)) == TeamOptions(TeamsOf(players))
    decreases |players|
  {
    if |players| > 0 {
      HistogramOrder(players[..|players| - 1]);
      HistogramOrderStep(players);
    }
  }

  /** The sum of the counts of a histogram. */
  function TotalCount(h: seq<TeamCount>): nat
  {
    if |h| == 0 then 0 else TotalCount(h[..|h| - 1]) + h[|h| - 1].count
  }

  lemma {:induction false} TotalCountUpdate(h: seq<TeamCount>, i: nat, e: TeamCount)
    requires i < |h|
    ensures TotalCount(h[i := e]) + h[i].count == TotalCount(h) + e.count
    decreases |h|
  {
    var n := |h| - 1;
    if i < n {
      assert h[i := e][..n] == h[..n][i := e];
      TotalCountUpdate(h[..n], i, e);
    } else {
      assert h[i := e][..n] == h[..n];
    }
  }

  /** Every bump adds exactly one to the total. */
  lemma BumpTotal(h: seq<TeamCount>, t: string)
    requires NoDups(Names(h))
    ensures TotalCount(Bump(h, t)) == TotalCount(h) + 1
  {
    var r := Bump(h, t);
    if t in Names(h) {
      var i :| 0 <= i < |h| && Names(h)[i] == t;
      assert |r| == |h|;
      forall j | 0 <= j < |h| && j != i ensures r[j] == h[j] {
        assert Names(h)[j] != t;
        assert r[j].name == Names(r)[j] == Names(h)[j];
      }
      assert r == h[i := r[i]];
      TotalCountUpdate(h, i, r[i]);
    } else {
      assert r[..|h|] == h by {
        forall j | 0 <= j < |h| ensures r[j] == h[j] {
          assert r[j].name == Names(r)[j] == Names(h)[j];
        }
      }
    }
  }

  /** The number of players with a non-empty team. */
  function CountTeamed(players: seq<Player>): nat
  {
    if |players| == 0 then 0
    else CountTeamed(players[..|players| - 1]) + (if players[|players| - 1].team != "" then 1 else 0)
  }

  /** The histogram's counts add up to the number of players that have a team. */
  lemma {:induction false} HistogramTotal(players: seq<Player>)
    ensures TotalCount(TeamHistogram(players)) == CountTeamed(players)
    ensures CountTeamed(players) + CountTeam(players, "") == |players|
    decreases |players|
  {
    if |players| > 0 {
      var init := players[..|players| - 1];
      HistogramTotal(init);
      if players[|players| - 1].team != "" {
        BumpTotal(TeamHistogram(init), players[|players| - 1].team);
      }
    }
  }

  /**
   * The "most players" card: "-" for an empty histogram, otherwise the
   * name of the first entry whose count no other entry exceeds (the
   * reduce keeps the current maximum unless a count is strictly larger).
   */
  method TopTeam(h: seq<TeamCount>) returns (name: string)
    ensures |h| == 0 ==> name == "-"
    ensures |h| > 0 ==> exists i :: 0 <= i < |h| && h[i].name == name
                          && (forall j :: 0 <= j < |h| ==> h[j].count <= h[i].count)
                          && (forall j :: 0 <= j < i ==> h[j].count < h[i].count)
  {
    if |h| == 0 {
      return "-";
    }
    var best := 0;
    var k := 1;
    while k < |h|
      invariant 0 <= best < k <= |h|
      invariant forall j :: 0 <= j < k ==> h[j].count <= h[best].count
      invariant forall j :: 0 <= j < best ==> h[j].count < h[best].count
    {
      if h[k].count > h[best].count {
        best := k;
      }
      k := k + 1;
    }
    name := h[best].name;
  }

  /** One entry of `recentPlayers`. */
  datatype PlayerSummary = PlayerSummary(id: string, name: string, team: string)

  /** `players.slice(0, 5)` projected to id, name and team. */
  function RecentPlayers(players: seq<Player>): (r: seq<PlayerSummary>)
    ensures |r| == if |players| < 5 then |players| else 5
    ensures forall i :: 0 <= i < |r| ==>
      r[i] == PlayerSummary(players[i].id, players[i].name, players[i].team)
  {
    var n := if |players| < 5 then |players| else 5;
    seq(n, i requires 0 <= i < n => PlayerSummary(players[i].id, players[i].name, players[i].team))
  }

  datatype Stats = Stats(
    totalPlayers: nat,
    totalEvaluations: nat,
    totalAttendance: nat,
    playersCountByTeam: seq<TeamCount>,
    recentPlayers: seq<PlayerSummary>)

  /**
   * fetchStats over the three data sets: the totals are the list lengths,
   * the per-team counts are the team histogram and account for every player
   * with a team, and the recent players are the first five at most.
   */
  function FetchStats(players: seq<Player>, evaluations: seq<Evaluation>, attendance: seq<AttendanceRecord>)
    : (r: Stats)
    ensures r.totalPlayers == |players|
    ensures r.totalEvaluations == |evaluations|
    ensures r.totalAttendance == |attendance|
    ensures TotalCount(r.playersCountByTeam) + CountTeam(players, "") == r.totalPlayers
    ensures Names(r.playersCountByTeam) == TeamOptions(TeamsOf(players))
    ensures |r.recentPlayers| <= 5 && |r.recentPlayers| <= r.totalPlayers
    ensures r.playersCountByTeam == TeamHistogram(players)
    ensures r.recentPlayers == RecentPlayers(players)
  {
    HistogramTotal(players);
    HistogramOrder(players);
    Stats(|players|, |evaluations|, |attendance|, TeamHistogram(players), RecentPlayers(players))
  }
}

=== FILE: data_index.dfy ===
/**
 * The data helpers shared by the pages: lookup by id, per-player and
 * per-team selection, attendance percentages and average ratings.
 */
module DataIndex {
  import opened Common
  import opened Records
  import opened Evaluations

  /** getPlayerById: the first player carrying the id, or none. */
  function GetPlayerById(playerId: string, players: seq<Player>): (r: Option<Player>)
    ensures r.None? <==> forall i :: 0 <= i < |players| ==> players[i].id != playerId
    ensures r.Some? ==> r.value.id == playerId
    ensures r.Some? ==> exists i :: 0 <= i < |players| && players[i] == r.value
                                 && forall j :: 0 <= j < i ==> players[j].id != playerId
  {
    Find(players, (p: Player) => p.id == playerId)
  }

  /** getPlayerEvaluations: exactly the player's evaluations, in their original order. */
  function GetPlayerEvaluations(playerId: string, evaluations: seq<Evaluation>): (r: seq<Evaluation>)
    ensures forall i :: 0 <= i < |r| ==> r[i].playerId == playerId
    ensures forall e :: multiset(r)[e] == if e.playerId == playerId then multiset(evaluations)[e] else 0
    ensures IsSubsequence(r, evaluations)
  {
    Filter(evaluations, (e: Evaluation) => e.playerId == playerId)
  }

  /** getPlayerAttendance: exactly the player's attendance records, in their original order. */
  function GetPlayerAttendance(playerId: string, records: seq<AttendanceRecord>): (r: seq<AttendanceRecord>)
    ensures forall i :: 0 <= i < |r| ==> r[i].playerId == playerId
    ensures forall a :: multiset(r)[a] == if a.playerId == playerId then multiset(records)[a] else 0
    ensures IsSubsequence(r, records)
  {
    Filter(records, (a: AttendanceRecord) => a.playerId == playerId)
  }

  /** filterPlayersByTeam: every player of the team and only those, in order. */
  function FilterPlayersByTeam(team: string, players: seq<Player>): (r: seq<Player>)
    ensures forall i :: 0 <= i < |r| ==> r[i].team == team
    ensures forall p :: multiset(r)[p] == if p.team == team then multiset(players)[p] else 0
    ensures IsSubsequence(r, players)
  {
    Filter(players, (p: Player) => p.team == team)
  }

  /** Selecting a team's players a second time changes nothing. */
  lemma FilterPlayersByTeamIdempotent(team: string, players: seq<Player>)
    ensures FilterPlayersByTeam(team, FilterPlayersByTeam(team, players)) == FilterPlayersByTeam(team, players)
  {
    FilterIdempotent(players, (p: Player) => p.team == team);
  }

  // ---------------------------------------------------------------------------
  // Attendance percentages

  datatype AttendanceStats = AttendanceStats(presentPct: int, absentPct: int, latePct: int)

  /** The number of records with the given status. */
  function CountStatus(records: seq<AttendanceRecord>, status: AttendanceStatus): (r: nat)
    ensures r <= |records|
  {
    |Filter(records, (a: AttendanceRecord) => a.status == status)|
  }

  /** `pct` is `Math.round(count / total * 100)`: the nearest whole percentage, halves up. */
  predicate IsRoundedPercent(pct: int, count: int, total: int) {
    2 * total * pct <= 200 * count + total < 2 * total * (pct + 1)
  }

  /** `Math.round(count / total * 100)`, for a count no larger than the total. */
  function Percent(count: nat, total: nat): (r: int)
    requires 0 < total
    requires count <= total
    ensures IsRoundedPercent(r, count, total)
    ensures 0 <= r <= 100
  {
    RoundDivShareBounds(count, total, 100);
    RoundDiv(count * 100, total)
  }

  /**
   * calculateAttendanceStats: over the player's own records only, each
   * status's share rounded to a whole percentage; all zero when the player
   * has no records.
   */
  function CalculateAttendanceStats(playerId: string, records: seq<AttendanceRecord>): (r: AttendanceStats)
    ensures var mine := GetPlayerAttendance(playerId, records);
      && (|mine| == 0 ==> r == AttendanceStats(0, 0, 0))
      && (|mine| > 0 ==>
            && IsRoundedPercent(r.presentPct, CountStatus(mine, Present), |mine|)
            && IsRoundedPercent(r.absentPct, CountStatus(mine, Absent), |mine|)
            && IsRoundedPercent(r.latePct, CountStatus(mine, Late), |mine|))
    ensures 0 <= r.presentPct <= 100 && 0 <= r.absentPct <= 100 && 0 <= r.latePct <= 100
  {
    var mine := GetPlayerAttendance(playerId, records);
    var total := |mine|;
    if total == 0 then AttendanceStats(0, 0, 0)
    else
      AttendanceStats(
        Percent(CountStatus(mine, Present), total),
        Percent(CountStatus(mine, Absent), total),
        Percent(CountStatus(mine, Late), total))
  }

  /** Every record has exactly one of the three statuses. */
  lemma {:induction false} StatusCountsPartition(records: seq<AttendanceRecord>)
    ensures CountStatus(records, Present) + CountStatus(records, Absent) + CountStatus(records, Late) == |records|
    decreases |records|
  {
    if |records| > 0 {
      StatusCountsPartition(records[1..]);
    }
  }

  /**
   * The three rounded percentages are independent, so they need not add up
   * to 100; each is off by at most one half, so the sum lies in [99, 101].
   */
  lemma AttendancePercentagesNearHundred(playerId: string, records: seq<AttendanceRecord>)
    requires exists a :: a in records && a.playerId == playerId
    ensures var s := CalculateAttendanceStats(playerId, records);
      99 <= s.presentPct + s.absentPct + s.latePct <= 101
  {
    var mine := GetPlayerAttendance(playerId, records);
    var a :| a in records && a.playerId == playerId;
    assert multiset(mine)[a] > 0;
    var st := CalculateAttendanceStats(playerId, records);
    StatusCountsPartition(mine);
    PercentSumBounds(st.presentPct, st.absentPct, st.latePct,
      CountStatus(mine, Present), CountStatus(mine, Absent), CountStatus(mine, Late), |mine|);
  }

  /** Three shares of one whole, each rounded to the nearest percent, add up to 99, 100 or 101. */
  lemma PercentSumBounds(p: int, b: int, l: int, kp: int, kb: int, kl: int, n: int)
    requires n > 0
    requires kp + kb + kl == n
    requires IsRoundedPercent(p, kp, n) && IsRoundedPercent(b, kb, n) && IsRoundedPercent(l, kl, n)
    ensures 99 <= p + b + l <= 101
  {
    var total := p + b + l;
    assert 2 * n * total == 2 * n * p + 2 * n * b + 2 * n * l;
    assert 2 * n * total <= 203 * n;
    assert 197 * n < 2 * n * total;
    MulCancel(total, 101, 2 * n);
    MulCancel(98, total - 1, 2 * n);
  }

  /** Three sessions, one of each status: 33% each, which sums to 99. */
  lemma AttendanceSharesNeedNotSumToHundred()
    ensures var recs := [AttendanceRecord("p1", "2024-01-01", Present),
                         AttendanceRecord("p1", "2024-01-08", Absent),
                         AttendanceRecord("p1", "2024-01-15", Late)];
      CalculateAttendanceStats("p1", recs) == AttendanceStats(33, 33, 33)
  {
    var recs := [AttendanceRecord("p1", "2024-01-01", Present),
                 AttendanceRecord("p1", "2024-01-08", Absent),
                 AttendanceRecord("p1", "2024-01-15", Late)];
    FilterAll(recs, (a: AttendanceRecord) => a.playerId == "p1");
    var mine := GetPlayerAttendance("p1", recs);
    assert mine == recs;
    OneOfEach(mine, Present);
    OneOfEach(mine, Absent);
    OneOfEach(mine, Late);
    assert Percent(1, 3) == 33;
  }

  /** Counting a status over a list with one record more at the front. */
  lemma CountStatusCons(a: AttendanceRecord, rest: seq<AttendanceRecord>, status: AttendanceStatus)
    ensures CountStatus([a] + rest, status) == (if a.status == status then 1 else 0) + CountStatus(rest, status)
  {
    assert ([a] + rest)[1..] == rest;
  }

  /** In three records with three different statuses, each status occurs once. */
  lemma OneOfEach(recs: seq<AttendanceRecord>, status: AttendanceStatus)
    requires |recs| == 3 && recs[0].status == Present && recs[1].status == Absent && recs[2].status == Late
    ensures CountStatus(recs, status) == 1
  {
    assert recs == [recs[0]] + ([recs[1]] + ([recs[2]] + []));
    CountStatusCons(recs[0], [recs[1]] + ([recs[2]] + []), status);
    CountStatusCons(recs[1], [recs[2]] + [], status);
    CountStatusCons(recs[2], [], status);
  }

  // ---------------------------------------------------------------------------
  // Average ratings

  /** Per-dimension averages, in tenths. */
  datatype AverageRatings = AverageRatings(skills: Skills, overall: int)

  /** The sum of one skill over a list of evaluations. */
  function SkillTotal(evs: seq<Evaluation>, k: Skill): int {
    if |evs| == 0 then 0 else SkillTotal(evs[..|evs| - 1], k) + Score(evs[|evs| - 1].skills, k)
  }

  /** The sum of the overalls (tenths), a missing overall counting as 0 (`evaluation.overall || 0`). */
  function OverallTotal(evs: seq<Evaluation>): int {
    if |evs| == 0 then 0 else OverallTotal(evs[..|evs| - 1]) + evs[|evs| - 1].overall.GetOr(0)
  }

  /** `avg` (tenths) is `Math.round(total / count * 10) / 10` for an integer total. */
  predicate IsRoundedTenths(avg: int, total: int, count: int) {
    2 * count * avg <= 20 * total + count < 2 * count * (avg + 1)
  }

  function AddSkills(a: Skills, b: Skills): (r: Skills)
    ensures forall k :: Score(r, k) == Score(a, k) + Score(b, k)
  {
    Skills(a.passing + b.passing, a.shooting + b.shooting, a.dribbling + b.dribbling,
           a.technique + b.technique, a.tactical + b.tactical, a.physical + b.physical,
           a.speed + b.speed, a.aerial + b.aerial, a.defending + b.defending, a.morale + b.morale)
  }

  function RoundTenths(totals: Skills, count: int): (r: Skills)
    requires count > 0
    ensures forall k :: Score(r, k) == RoundDiv(Score(totals, k) * 10, count)
    ensures forall k :: IsRoundedTenths(Score(r, k), Score(totals, k), count)
  {
    Skills(RoundDiv(totals.passing * 10, count), RoundDiv(totals.shooting * 10, count),
           RoundDiv(totals.dribbling * 10, count), RoundDiv(totals.technique * 10, count),
           RoundDiv(totals.tactical * 10, count), RoundDiv(totals.physical * 10, count),
           RoundDiv(totals.speed * 10, count), RoundDiv(totals.aerial * 10, count),
           RoundDiv(totals.defending * 10, count), RoundDiv(totals.morale * 10, count))
  }

  /**
   * Scores in [1, 10] keep the total of a skill over n evaluations in
   * [n, 10n], so its rounded average lies in [1.0, 10.0].
   */
  lemma {:induction false} AverageSkillInRange(evs: seq<Evaluation>, k: Skill)
    requires |evs| > 0
    requires forall i :: 0 <= i < |evs| ==> AllInRange(evs[i].skills)
    ensures 10 <= RoundDiv(SkillTotal(evs, k) * 10, |evs|) <= 100
  {
    SkillTotalBounds(evs, k);
    var n := |evs|;
    RoundDivOfMultiple(10, n);
    RoundDivOfMultiple(100, n);
    RoundDivMonotone(10 * n, SkillTotal(evs, k) * 10, n);
    RoundDivMonotone(SkillTotal(evs, k) * 10, 100 * n, n);
  }

  lemma {:induction false} SkillTotalBounds(evs: seq<Evaluation>, k: Skill)
    requires forall i :: 0 <= i < |evs| ==> AllInRange(evs[i].skills)
    ensures |evs| <= SkillTotal(evs, k) <= 10 * |evs|
    decreases |evs|
  {
    if |evs| > 0 {
      SkillTotalBounds(evs[..|evs| - 1], k);
      assert AllInRange(evs[|evs| - 1].skills);
    }
  }

  /** The player's evaluations are exactly the evaluations carrying the player's id. */
  lemma PlayerEvaluationsMembership(playerId: string, evaluations: seq<Evaluation>)
    ensures forall e :: e in GetPlayerEvaluations(playerId, evaluations) <==> e in evaluations && e.playerId == playerId
    ensures |GetPlayerEvaluations(playerId, evaluations)| == 0 <==> forall e :: e in evaluations ==> e.playerId != playerId
  {
    var mine := GetPlayerEvaluations(playerId, evaluations);
    forall e ensures e in mine <==> e in evaluations && e.playerId == playerId {
      FilterMembership(evaluations, (e: Evaluation) => e.playerId == playerId, e);
    }
    if |mine| > 0 {
      assert mine[0] in mine;
    }
  }

  /** With every evaluation of the player in range, each rounded skill average lies in [1.0, 10.0]. */
  lemma PlayerAveragesInRange(playerId: string, evaluations: seq<Evaluation>)
    requires |GetPlayerEvaluations(playerId, evaluations)| > 0
    requires forall e :: e in evaluations && e.playerId == playerId ==> AllInRange(e.skills)
    ensures var mine := GetPlayerEvaluations(playerId, evaluations);
      forall k :: 10 <= RoundDiv(SkillTotal(mine, k) * 10, |mine|) <= 100
  {
    var mine := GetPlayerEvaluations(playerId, evaluations);
    PlayerEvaluationsMembership(playerId, evaluations);
    assert forall j :: 0 <= j < |mine| ==> mine[j] in mine;
    forall k ensures 10 <= RoundDiv(SkillTotal(mine, k) * 10, |mine|) <= 100 {
      AverageSkillInRange(mine, k);
    }
  }

  /** The per-skill totals and the overall total of a list of evaluations, summed front to back. */
  method Totals(evs: seq<Evaluation>) returns (totals: Skills, overallTotal: int)
    ensures forall k :: Score(totals, k) == SkillTotal(evs, k)
    ensures overallTotal == OverallTotal(evs)
  {
    totals := Skills(0, 0, 0, 0, 0, 0, 0, 0, 0, 0);
    overallTotal := 0;
    var i := 0;
    while i < |evs|
      invariant 0 <= i <= |evs|
      invariant forall k :: Score(totals, k) == SkillTotal(evs[..i], k)
      invariant overallTotal == OverallTotal(evs[..i])
    {
      assert evs[..i + 1][..i] == evs[..i];
      totals := AddSkills(totals, evs[i].skills);
      overallTotal := overallTotal + evs[i].overall.GetOr(0);
      i := i + 1;
    }
    assert evs[..i] == evs;
  }

  /**
   * calculatePlayerAverageRatings: "no data" exactly when the player has no
   * evaluations; otherwise every dimension's mean over the player's
   * evaluations, rounded half-up to one decimal. An evaluation without an
   * overall adds 0 to the overall total but still counts in the divisor.
   */
  method CalculatePlayerAverageRatings(playerId: string, evaluations: seq<Evaluation>)
    returns (r: Option<AverageRatings>)
    ensures r.None? <==> forall e :: e in evaluations ==> e.playerId != playerId
    ensures r.Some? ==>
      var mine := GetPlayerEvaluations(playerId, evaluations);
      && (forall k :: IsRoundedTenths(Score(r.value.skills, k), SkillTotal(mine, k), |mine|))
      && 2 * |mine| * r.value.overall <= 2 * OverallTotal(mine) + |mine| < 2 * |mine| * (r.value.overall + 1)
    ensures r.Some? && (forall e :: e in evaluations && e.playerId == playerId ==> AllInRange(e.skills)) ==>
      forall k :: 10 <= Score(r.value.skills, k) <= 100
  {
    var mine := GetPlayerEvaluations(playerId, evaluations);
    PlayerEvaluationsMembership(playerId, evaluations);
    if |mine| == 0 {
      return None;
    }
    var totals, overallTotal := Totals(mine);
    var count := |mine|;
    r := Some(AverageRatings(RoundTenths(totals, count), RoundDiv(overallTotal, count)));
    if forall e :: e in evaluations && e.playerId == playerId ==> AllInRange(e.skills) {
      PlayerAveragesInRange(playerId, evaluations);
    }
  }
}

=== FILE: evaluations.dfy ===
/**
 * Skill evaluations and their one-decimal overall rating.
 *
 * One-decimal ratings are held as integer tenths (7.3 is 73). An
 * evaluation date is held as the integer yyyymmdd, which orders dates the
 * way the source's `new Date(...).getTime()` comparison does.
 */
module Evaluations {
  import opened Common

  /** The ten skill dimensions, in the order every page lists them. */
  datatype Skill =
    | Passing | Shooting | Dribbling | Technique | Tactical
    | Physical | Speed | Aerial | Defending | Morale

  const SkillOrder: seq<Skill> :=
    [Passing, Shooting, Dribbling, Technique, Tactical, Physical, Speed, Aerial, Defending, Morale]

  /** One value per skill dimension. */
  datatype Skills = Skills(
    passing: int, shooting: int, dribbling: int, technique: int, tactical: int,
    physical: int, speed: int, aerial: int, defending: int, morale: int)

  function Score(s: Skills, k: Skill): int {
    match k
    case Passing => s.passing
    case Shooting => s.shooting
    case Dribbling => s.dribbling
    case Technique => s.technique
    case Tactical => s.tactical
    case Physical => s.physical
    case Speed => s.speed
    case Aerial => s.aerial
    case Defending => s.defending
    case Morale => s.morale
  }

  /** The ten scores as a list in `SkillOrder`, the `scores` array of the source. */
  function ScoreList(s: Skills): (r: seq<int>)
    ensures |r| == |SkillOrder| == 10
    ensures forall i :: 0 <= i < 10 ==> r[i] == Score(s, SkillOrder[i])
  {
    [s.passing, s.shooting, s.dribbling, s.technique, s.tactical,
     s.physical, s.speed, s.aerial, s.defending, s.morale]
  }

  /** The sum of the ten scores. */
  function ScoreSum(s: Skills): int {
    Sum(ScoreList(s))
  }

  /** The sum of the list is the field-by-field addition the chart code writes out. */
  lemma ScoreSumFields(s: Skills)
    ensures ScoreSum(s) == s.passing + s.shooting + s.dribbling + s.technique + s.tactical
                         + s.physical + s.speed + s.aerial + s.defending + s.morale
  {
    var xs := ScoreList(s);
    SumPrefixStep(xs, 10);
    SumPrefixStep(xs, 9);
    SumPrefixStep(xs, 8);
    SumPrefixStep(xs, 7);
    SumPrefixStep(xs, 6);
    SumPrefixStep(xs, 5);
    SumPrefixStep(xs, 4);
    SumPrefixStep(xs, 3);
    SumPrefixStep(xs, 2);
    SumPrefixStep(xs, 1);
    assert xs[..10] == xs;
    assert xs[..0] == [];
  }

  /** Every score lies in the form's range [1, 10]. */
  predicate AllInRange(s: Skills) {
    forall k: Skill :: 1 <= Score(s, k) <= 10
  }

  /** A coach's scoring of one player; `overall` (tenths) is filled in after construction. */
  datatype Evaluation = Evaluation(
    id: string,
    playerId: string,
    skills: Skills,
    date: int,
    notes: Option<string>,
    overall: Option<int>)

  /**
   * `Math.round(mean * 10) / 10` of a non-empty score list, in tenths:
   * the mean rounded half-up to one decimal place.
   */
  function MeanTenths(xs: seq<int>): (r: int)
    requires |xs| > 0
    ensures 2 * |xs| * r <= 20 * Sum(xs) + |xs| < 2 * |xs| * (r + 1)
  {
    RoundDiv(Sum(xs) * 10, |xs|)
  }

  /**
   * calculateOverall: the mean of the ten scores to one decimal. Because the
   * count is fixed at ten, the mean in tenths is exactly the sum: no
   * rounding ever takes place.
   */
  function CalculateOverall(s: Skills): (r: int)
    ensures r == ScoreSum(s)
  {
    RoundDivOfMultiple(ScoreSum(s), 10);
    MeanTenths(ScoreList(s))
  }

  /** The overall does not depend on the order in which the ten scores are listed. */
  lemma OverallOrderIndependent(s: Skills, xs: seq<int>)
    requires multiset(xs) == multiset(ScoreList(s))
    ensures |xs| == 10
    ensures MeanTenths(xs) == CalculateOverall(s)
  {
    assert |xs| == |multiset(xs)| == |multiset(ScoreList(s))| == 10;
    SumPermutation(xs, ScoreList(s));
  }

  /** Scores in [1, 10] give an overall in [1.0, 10.0]. */
  lemma OverallInRange(s: Skills)
    requires AllInRange(s)
    ensures 10 <= CalculateOverall(s) <= 100
  {
    var xs := ScoreList(s);
    assert forall i :: 0 <= i < |xs| ==> 1 <= xs[i] <= 10 by {
      forall i | 0 <= i < |xs| ensures 1 <= xs[i] <= 10 {
        assert xs[i] == Score(s, SkillOrder[i]);
      }
    }
    SumBounds(xs, 1, 10);
  }

  /**
   * The module-initialisation pass that sets `overall` on every evaluation:
   * afterwards each overall is the sum of its own ten scores (in tenths),
   * and no other field has changed.
   */
  function FillOverall(evs: seq<Evaluation>): (r: seq<Evaluation>)
    ensures |r| == |evs|
    ensures forall i :: 0 <= i < |r| ==> r[i].overall == Some(ScoreSum(r[i].skills))
    ensures forall i :: 0 <= i < |r| ==> r[i].(overall := evs[i].overall) == evs[i]
  {
    seq(|evs|, i requires 0 <= i < |evs| => evs[i].(overall := Some(CalculateOverall(evs[i].skills))))
  }

  function Sample(id: string, playerId: string, skills: seq<int>, date: int): Evaluation
    requires |skills| == 10
  {
    Evaluation(id, playerId,
      Skills(skills[0], skills[1], skills[2], skills[3], skills[4],
             skills[5], skills[6], skills[7], skills[8], skills[9]),
      date, None, None)
  }

  /** The sample evaluations shipped with the application, before `overall` is filled in (notes omitted). */
  const SampleEvaluations: seq<Evaluation> := [
    Sample("e1", "p1", [7, 5, 6, 7, 8, 8, 7, 8, 9, 8], 20231110),
    Sample("e2", "p1", [8, 5, 6, 8, 8, 9, 7, 9, 9, 9], 20240215),
    Sample("e3", "p2", [8, 6, 7, 7, 8, 8, 7, 8, 9, 8], 20231020),
    Sample("e4", "p3", [9, 8, 9, 8, 8, 7, 8, 6, 7, 9], 20231205),
    Sample("e5", "p4", [7, 9, 8, 8, 7, 8, 9, 7, 6, 8], 20240115),
    Sample("e6", "p5", [6, 5, 5, 6, 7, 6, 7, 6, 8, 8], 20231125),
    Sample("e7", "p6", [7, 6, 6, 7, 6, 7, 8, 6, 8, 7], 20240105),
    Sample("e8", "p7", [8, 7, 8, 8, 7, 6, 8, 5, 6, 8], 20231215),
    Sample("e9", "p8", [7, 8, 7, 7, 6, 7, 8, 6, 5, 8], 20240201),
    Sample("e10", "p9", [8, 6, 7, 8, 9, 9, 7, 9, 9, 9], 20231015),
    Sample("e11", "p11", [9, 8, 9, 9, 8, 8, 8, 7, 7, 9], 20231120),
    Sample("e12", "p13", [8, 6, 7, 9, 9, 9, 8, 9, 9, 9], 20240125)
  ]

  /** The initialised sample data. */
  function InitialEvaluations(): seq<Evaluation> {
    FillOverall(SampleEvaluations)
  }

  /** Sample e1 scores (7,5,6,7,8,8,7,8,9,8) and so gets overall 7.3. */
  lemma SampleE1Overall()
    ensures InitialEvaluations()[0].id == "e1"
    ensures InitialEvaluations()[0].overall == Some(73)
  {
    var e1 := InitialEvaluations()[0];
    assert e1.(overall := SampleEvaluations[0].overall) == SampleEvaluations[0];
    ScoreSumFields(e1.skills);
  }
}

=== FILE: evaluations_page.dfy ===
/**
 * The evaluations list page: every evaluation joined with its player's
 * name, team and position, narrowed by a name search and a team filter.
 */
module EvaluationList {
  import opened Common
  import opened Records
  import opened Evaluations

  /** An evaluation with the fields of its player copied in. */
  datatype EnrichedEvaluation = EnrichedEvaluation(
    evaluation: Evaluation,
    playerName: string,
    team: string,
    position: string,
    overallRating: int)

  /**
   * The join for one evaluation: the first player with the evaluation's
   * player id supplies name, team and position; without one all three are
   * "unknown". A missing overall is shown as 0.
   */
  function Enrich(e: Evaluation, players: seq<Player>): (r: EnrichedEvaluation)
    ensures r.evaluation == e
    ensures r.overallRating == e.overall.GetOr(0)
    ensures (forall i :: 0 <= i < |players| ==> players[i].id != e.playerId) ==>
      r.playerName == UnknownName && r.team == UnknownName && r.position == UnknownName
    ensures (exists i :: 0 <= i < |players| && players[i].id == e.playerId) ==>
      exists i :: 0 <= i < |players| && players[i].id == e.playerId
               && (forall j :: 0 <= j < i ==> players[j].id != e.playerId)
               && r.playerName == players[i].name && r.team == players[i].team && r.position == players[i].position
  {
    match Find(players, (p: Player) => p.id == e.playerId)
    case Some(p) => EnrichedEvaluation(e, p.name, p.team, p.position, e.overall.GetOr(0))
    case None => EnrichedEvaluation(e, UnknownName, UnknownName, UnknownName, e.overall.GetOr(0))
  }

  /** The enriched list: one row per evaluation, in the same order. */
  function EnrichAll(evaluations: seq<Evaluation>, players: seq<Player>): (r: seq<EnrichedEvaluation>)
    ensures |r| == |evaluations|
    ensures forall i :: 0 <= i < |r| ==> r[i].evaluation == evaluations[i] && r[i] == Enrich(evaluations[i], players)
  {
    seq(|evaluations|, i requires 0 <= i < |evaluations| => Enrich(evaluations[i], players))
  }

  /** The team filter's "every team" value. */
  const AnyTeam: string := "all"

  predicate MatchesName(row: EnrichedEvaluation, query: string) {
    ContainsIgnoringCase(row.playerName, query)
  }

  predicate InTeam(row: EnrichedEvaluation, teamFilter: string) {
    row.team == teamFilter
  }

  /** Whether a row survives both filters: an empty query and an empty or "all" team let everything through. */
  predicate Shown(row: EnrichedEvaluation, query: string, teamFilter: string) {
    (query == "" || MatchesName(row, query))
    && (teamFilter == "" || teamFilter == AnyTeam || InTeam(row, teamFilter))
  }

  /** The search step: applied only when the query is non-empty. */
  function Searched(rows: seq<EnrichedEvaluation>, query: string): seq<EnrichedEvaluation> {
    if query != "" then Filter(rows, (x: EnrichedEvaluation) => MatchesName(x, query)) else rows
  }

  /** The team step: applied only when the team filter is neither empty nor "all". */
  function TeamFiltered(rows: seq<EnrichedEvaluation>, teamFilter: string): seq<EnrichedEvaluation> {
    if teamFilter != "" && teamFilter != AnyTeam then Filter(rows, (x: EnrichedEvaluation) => InTeam(x, teamFilter)) else rows
  }

  lemma BothSteps(rows: seq<EnrichedEvaluation>, query: string, teamFilter: string)
    requires query != "" && teamFilter != "" && teamFilter != AnyTeam
    ensures TeamFiltered(Searched(rows, query), teamFilter)
         == Filter(rows, (x: EnrichedEvaluation) => Shown(x, query, teamFilter))
  {
    var byName := (x: EnrichedEvaluation) => MatchesName(x, query);
    var byTeam := (x: EnrichedEvaluation) => InTeam(x, teamFilter);
    var shown := (x: EnrichedEvaluation) => Shown(x, query, teamFilter);
    assert Searched(rows, query) == Filter(rows, byName);
    assert TeamFiltered(Filter(rows, byName), teamFilter) == Filter(Filter(rows, byName), byTeam);
    FilterCompose(rows, byName, byTeam, shown);
  }

  lemma SearchStepOnly(rows: seq<EnrichedEvaluation>, query: string, teamFilter: string)
    requires query != "" && (teamFilter == "" || teamFilter == AnyTeam)
    ensures TeamFiltered(Searched(rows, query), teamFilter)
         == Filter(rows, (x: EnrichedEvaluation) => Shown(x, query, teamFilter))
  {
    FilterExtensional(rows, (x: EnrichedEvaluation) => MatchesName(x, query), (x: EnrichedEvaluation) => Shown(x, query, teamFilter));
  }

  lemma TeamStepOnly(rows: seq<EnrichedEvaluation>, query: string, teamFilter: string)
    requires query == "" && teamFilter != "" && teamFilter != AnyTeam
    ensures TeamFiltered(Searched(rows, query), teamFilter)
         == Filter(rows, (x: EnrichedEvaluation) => Shown(x, query, teamFilter))
  {
    FilterExtensional(rows, (x: EnrichedEvaluation) => InTeam(x, teamFilter), (x: EnrichedEvaluation) => Shown(x, query, teamFilter));
  }

  /** The two conditional filter steps, one after the other, are a single filter by `Shown`. */
  lemma StepsAreOneFilter(rows: seq<EnrichedEvaluation>, query: string, teamFilter: string)
    ensures TeamFiltered(Searched(rows, query), teamFilter)
         == Filter(rows, (x: EnrichedEvaluation) => Shown(x, query, teamFilter))
  {
    if query != "" && teamFilter != "" && teamFilter != AnyTeam {
      BothSteps(rows, query, teamFilter);
    } else if query != "" {
      SearchStepOnly(rows, query, teamFilter);
    } else if teamFilter != "" && teamFilter != AnyTeam {
      TeamStepOnly(rows, query, teamFilter);
    } else {
      FilterAll(rows, (x: EnrichedEvaluation) => Shown(x, query, teamFilter));
    }
  }

  /**
   * The filter effect: the name search, then the team filter, each only
   * when set. The result is exactly the rows both filters let through, in
   * their original order.
   */
  function FilterRows(rows: seq<EnrichedEvaluation>, query: string, teamFilter: string): (r: seq<EnrichedEvaluation>)
    ensures r == Filter(rows, (x: EnrichedEvaluation) => Shown(x, query, teamFilter))
    ensures forall i :: 0 <= i < |r| ==> Shown(r[i], query, teamFilter)
    ensures IsSubsequence(r, rows)
  {
    StepsAreOneFilter(rows, query, teamFilter);
    TeamFiltered(Searched(rows, query), teamFilter)
  }

  /** With no search and no team chosen, every row is listed. */
  lemma NoFiltersListAll(rows: seq<EnrichedEvaluation>, teamFilter: string)
    requires teamFilter == "" || teamFilter == AnyTeam
    ensures FilterRows(rows, "", teamFilter) == rows
  {
    FilterAll(rows, (x: EnrichedEvaluation) => Shown(x, "", teamFilter));
  }

  /** Narrowing twice by the same search and team changes nothing further. */
  lemma FilterRowsIdempotent(rows: seq<EnrichedEvaluation>, query: string, teamFilter: string)
    ensures FilterRows(FilterRows(rows, query, teamFilter), query, teamFilter) == FilterRows(rows, query, teamFilter)
  {
    FilterIdempotent(rows, (x: EnrichedEvaluation) => Shown(x, query, teamFilter));
  }

  /**
   * The team choices: each non-empty team among the enriched rows, once;
   * "unknown" is among them exactly when some row has that team, which
   * includes every evaluation whose player cannot be found.
   */
  function TeamChoices(rows: seq<EnrichedEvaluation>): (r: seq<string>)
    ensures NoDups(r)
    ensures forall t :: t in r <==> t != "" && exists i :: 0 <= i < |rows| && rows[i].team == t
  {
    var teams := seq(|rows|, i requires 0 <= i < |rows| => rows[i].team);
    assert forall t :: t in teams <==> exists i :: 0 <= i < |rows| && rows[i].team == t by {
      forall t ensures t in teams <==> exists i :: 0 <= i < |rows| && rows[i].team == t {
        if exists i :: 0 <= i < |rows| && rows[i].team == t {
          var i :| 0 <= i < |rows| && rows[i].team == t;
          assert teams[i] == t;
        }
      }
    }
    TeamOptions(teams)
  }

  /** An evaluation of a player missing from the list puts "unknown" among the team choices. */
  lemma OrphanEvaluationAddsUnknownTeam(evaluations: seq<Evaluation>, players: seq<Player>, i: nat)
    requires i < |evaluations|
    requires forall j :: 0 <= j < |players| ==> players[j].id != evaluations[i].playerId
    ensures UnknownName in TeamChoices(EnrichAll(evaluations, players))
  {
    var rows := EnrichAll(evaluations, players);
    assert rows[i].team == UnknownName;
  }
}

=== FILE: players_page.dfy ===
/**
 * The players list page's search box: a player is listed when the query
 * occurs in the name or the team ignoring case, or in the national id as
 * typed.
 */
module PlayerSearch {
  import opened Common
  import opened Records

  /** The search predicate; the national id comparison is case-sensitive. */
  predicate Matches(p: Player, query: string) {
    ContainsIgnoringCase(p.name, query)
    || Contains(p.nationalId, query)
    || ContainsIgnoringCase(p.team, query)
  }

  /** filteredPlayers: exactly the matching players, in list order. */
  function FilterPlayers(players: seq<Player>, query: string): (r: seq<Player>)
    ensures forall i :: 0 <= i < |r| ==> Matches(r[i], query)
    ensures forall p :: multiset(r)[p] == if Matches(p, query) then multiset(players)[p] else 0
    ensures IsSubsequence(r, players)
  {
    Filter(players, (p: Player) => Matches(p, query))
  }

  /** An empty search lists every player. */
  lemma EmptySearchListsAll(players: seq<Player>)
    ensures FilterPlayers(players, "") == players
  {
    forall i | 0 <= i < |players| ensures Matches(players[i], "") {
      EmptyQueryMatches(players[i].name);
    }
    FilterAll(players, (p: Player) => Matches(p, ""));
  }

  /** A player matching a query also matches every prefix of it. */
  lemma MatchesPrefix(p: Player, query: string, more: string)
    requires Matches(p, query + more)
    ensures Matches(p, query)
  {
    LowerConcat(query, more);
    if ContainsIgnoringCase(p.name, query + more) {
      ContainsPrefix(ToLower(p.name), ToLower(query), ToLower(more));
    } else if Contains(p.nationalId, query + more) {
      ContainsPrefix(p.nationalId, query, more);
    } else {
      ContainsPrefix(ToLower(p.team), ToLower(query), ToLower(more));
    }
  }

  /** Typing more characters only narrows the list: no player appears more often than before. */
  lemma TypingNarrows(players: seq<Player>, query: string, more: string)
    ensures forall p :: multiset(FilterPlayers(players, query + more))[p] <= multiset(FilterPlayers(players, query))[p]
  {
    forall p | Matches(p, query + more) ensures Matches(p, query) {
      MatchesPrefix(p, query, more);
    }
  }

  /** Searching a list without repeated players lists no player twice. */
  lemma SearchKeepsDistinct(players: seq<Player>, query: string)
    requires NoDups(players)
    ensures NoDups(FilterPlayers(players, query))
  {
    FilterNoDups(players, (p: Player) => Matches(p, query));
  }
}

=== FILE: records.dfy ===
/**
 * The academy's root entity and the attendance entry that refers to it.
 * Only the fields some computation reads are kept: birth date, phone,
 * height, weight, e-mail and strong foot are display data.
 */
module Records {

  /** A registered player; `team` is an age-category name, possibly empty. */
  datatype Player = Player(
    id: string,
    name: string,
    nationalId: string,
    team: string,
    position: string)

  /** "Unknown": the name (and team, and position) shown for a player that cannot be found. */
  const UnknownName: string := "نامشخص"

  datatype AttendanceStatus = Present | Absent | Late

  /** One attendance entry: a player's status for one training session. */
  datatype AttendanceRecord = AttendanceRecord(
    playerId: string,
    sessionDate: string,
    status: AttendanceStatus)

  /** `players.map(p => p.team)`. */
  function TeamsOf(players: seq<Player>): (r: seq<string>)
    ensures |r| == |players|
    ensures forall i :: 0 <= i < |r| ==> r[i] == players[i].team
  {
    seq(|players|, i requires 0 <= i < |players| => players[i].team)
  }
}

=== FILE: subscriptions.dfy ===
/**
 * The subscriptions page: payment status, plan duration, recording a new
 * subscription and searching the list.
 *
 * Amounts are whole currency units (the form's `parseInt` result). An end
 * date is represented by the plan's length in months, the part of
 * `calculateEndDate` that depends on the plan.
 */
module Subscriptions {
  import opened Common
  import opened Records

  datatype PaymentStatus = Paid | Partial | Unpaid

  datatype SubscriptionStatus = Active | Expired | Pending

  datatype Subscription = Subscription(
    id: string,
    playerId: string,
    playerName: string,
    plan: string,
    amount: int,
    startDate: string,
    months: nat,
    status: SubscriptionStatus,
    paymentStatus: PaymentStatus,
    paidAmount: int)

  /** determinePaymentStatus: the three statuses split every (amount, paid) pair. */
  function DeterminePaymentStatus(amount: int, paidAmount: int): (r: PaymentStatus)
    ensures r == Paid <==> paidAmount >= amount
    ensures r == Partial <==> 0 < paidAmount < amount
    ensures r == Unpaid <==> paidAmount <= 0 && paidAmount < amount
  {
    if paidAmount >= amount then Paid
    else if paidAmount > 0 then Partial
    else Unpaid
  }

  const Monthly: string := "ماهانه"
  const Quarterly: string := "سه ماهه"
  const SemiAnnual: string := "شش ماهه"
  const Annual: string := "سالانه"

  /**
   * The number of months `calculateEndDate` adds for a plan: 1, 3, 6 or 12
   * for the four known plans, and 1 for any other plan string.
   */
  function PlanMonths(plan: string): (r: nat)
    ensures r in {1, 3, 6, 12}
    ensures r == 3 <==> plan == Quarterly
    ensures r == 6 <==> plan == SemiAnnual
    ensures r == 12 <==> plan == Annual
    ensures r == 1 <==> plan != Quarterly && plan != SemiAnnual && plan != Annual
  {
    if plan == Monthly then 1
    else if plan == Quarterly then 3
    else if plan == SemiAnnual then 6
    else if plan == Annual then 12
    else 1
  }

  /** The validated form: `paidAmount` is absent when the field was left empty. */
  datatype SubscriptionForm = SubscriptionForm(
    playerId: string,
    plan: string,
    amount: int,
    startDate: string,
    paidAmount: Option<int>)

  /**
   * The subscription `onSubmit` records: active, paid amount 0 when none was
   * given, payment status derived from amount and paid amount, and the
   * player's name (or "" for an unknown player). The id, derived from the
   * clock in the source, is a parameter.
   */
  function NewSubscription(id: string, form: SubscriptionForm, players: seq<Player>): (r: Subscription)
    ensures r.status == Active
    ensures r.paidAmount == (if form.paidAmount.Some? then form.paidAmount.value else 0)
    ensures r.paymentStatus == DeterminePaymentStatus(r.amount, r.paidAmount)
    ensures r.months == PlanMonths(form.plan)
    ensures r.id == id && r.playerId == form.playerId && r.plan == form.plan
         && r.amount == form.amount && r.startDate == form.startDate
    ensures (exists i :: 0 <= i < |players| && players[i].id == form.playerId) ==>
      exists i :: 0 <= i < |players| && players[i].id == form.playerId && r.playerName == players[i].name
               && forall j :: 0 <= j < i ==> players[j].id != form.playerId
    ensures (forall i :: 0 <= i < |players| ==> players[i].id != form.playerId) ==> r.playerName == ""
  {
    var paid := form.paidAmount.GetOr(0);
    var name := match Find(players, (p: Player) => p.id == form.playerId)
                case Some(p) => p.name
                case None => "";
    Subscription(id, form.playerId, name, form.plan, form.amount, form.startDate,
                 PlanMonths(form.plan), Active, DeterminePaymentStatus(form.amount, paid), paid)
  }

  /** With no paid amount given, a subscription with a positive amount is unpaid. */
  lemma MissingPaymentIsUnpaid(id: string, form: SubscriptionForm, players: seq<Player>)
    requires form.paidAmount.None?
    requires form.amount > 0
    ensures NewSubscription(id, form, players).paymentStatus == Unpaid
  {
  }

  /** A new subscription goes to the front; the existing ones follow unchanged and in order. */
  function AddSubscription(subscriptions: seq<Subscription>, s: Subscription): (r: seq<Subscription>)
    ensures |r| == |subscriptions| + 1
    ensures r[0] == s
    ensures r[1..] == subscriptions
  {
    [s] + subscriptions
  }

  /** The search predicate: the query, lower-cased, occurs in the lower-cased player name or plan. */
  predicate MatchesSearch(s: Subscription, query: string) {
    ContainsIgnoringCase(s.playerName, query) || ContainsIgnoringCase(s.plan, query)
  }

  /** filteredSubscriptions: exactly the matching subscriptions, in order. */
  function FilterSubscriptions(subscriptions: seq<Subscription>, query: string): (r: seq<Subscription>)
    ensures forall i :: 0 <= i < |r| ==> MatchesSearch(r[i], query)
    ensures forall s :: multiset(r)[s] == if MatchesSearch(s, query) then multiset(subscriptions)[s] else 0
    ensures IsSubsequence(r, subscriptions)
  {
    Filter(subscriptions, (s: Subscription) => MatchesSearch(s, query))
  }

  /** An empty search keeps every subscription. */
  lemma EmptySearchKeepsAll(subscriptions: seq<Subscription>)
    ensures FilterSubscriptions(subscriptions, "") == subscriptions
  {
    forall i | 0 <= i < |subscriptions| ensures MatchesSearch(subscriptions[i], "") {
      EmptyQueryMatches(subscriptions[i].playerName);
    }
    FilterAll(subscriptions, (s: Subscription) => MatchesSearch(s, ""));
  }

  /**
   * Searching after adding a subscription is searching before, with the new
   * subscription in front when it matches.
   */
  lemma SearchAfterAdd(subscriptions: seq<Subscription>, s: Subscription, query: string)
    ensures FilterSubscriptions(AddSubscription(subscriptions, s), query)
         == (if MatchesSearch(s, query) then [s] else []) + FilterSubscriptions(subscriptions, query)
  {
    FilterConcat([s], subscriptions, (x: Subscription) => MatchesSearch(x, query));
  }
}
